=== FILE: README.md ===
# Drive backend: files, storage and sharing, modelled in Dafny

This project models the core of the Drivebackend file-drive server. Users
upload files, which the server keeps on a storage backend (the local disk or
an S3 bucket). They list, search, rename, download and delete their files,
and share them in two ways:
- directly with another user, at `view` or `edit` permission;
- through a share link, named by an unguessable token, which may expire.

The model covers these parts of the source:
- the three registries, over the `users`, `files`, `file_shares` and
  `share_links` tables;
- the storage backends and the factory that picks one;
- the file service and the share service;
- the pure file-name helpers.

Every database table is a sequence of rows in table order. A query is a
function over that sequence:
- `WHERE` is a filter;
- `ORDER BY created_at DESC` is a stable sort on the key;
- `LIMIT ... OFFSET ...` is a page of the sorted rows;
- `rows[0]` of a query without `ORDER BY` is the first matching row.

A storage backend is a map from key to bytes. Every operation is a pure
function from the old state and its arguments to a `Result`, which is either
the new state and the answer, or one of the errors the source throws. An
error the services throw carries their message. A storage error and the
duplicate-email error come from the file system, the S3 SDK or PostgreSQL,
and stand for whatever those raise.

Inputs the source takes from its environment are explicit parameters:
- the fresh v4 uuids, row ids and link tokens;
- the clock (`now`, in milliseconds);
- the random string in generated file names;
- the URL the S3 signer returns;
- whether a storage call fails (`fault`), and for an upload at which step.

Modules, one per source file plus three shared ones:
- `Common`: identifiers, `Option`, `Result`, the errors and their messages.
- `Text`: ASCII `toLowerCase`, ECMAScript `trim`, `lastIndexOf`, substring
  search, and `Number.prototype.toString(radix)` with its inverse.
- `Ordering`: the query building blocks `First`, `Filter`, `SortDesc`,
  `Page` and `Query`, and `Somes`, the `filter(x => x !== null)` of a mapped
  list.
- `Like`: PostgreSQL `ILIKE`.
- `Uri`: `encodeURIComponent` and a percent-decoder.
- `Helpers`: the file-name helpers.
- `UserModel`, `FileModel` and `ShareModel`: the registries.
- `StorageService`: the backends and their factory.
- `FileService` and `ShareService`: the two services.

## Model

| member | source | states |
|---|---|---|
| Common.NullIfEmpty | src/models/user.model.ts:43-44 | `x \|\| null` on an optional string is absent exactly when the input is absent or empty, and otherwise the input |
| Common.OrElse | src/services/file.service.ts:24 | `s \|\| fallback` is `s` when it is non-empty and the fallback when it is empty |
| Text.ToLower | src/models/user.model.ts:41 | lower-casing keeps the length and maps each character independently; ASCII capitals become small letters and everything else is kept |
| Text.ToLowerIdempotent | src/models/user.model.ts:59 | lower-casing a lower-cased email changes nothing, so the lookup's lower-casing leaves a stored email unchanged |
| Text.Trim | src/services/file.service.ts:95-99 | `trim()` returns a string no longer than the input whose first and last characters are not white space |
| Text.TrimShape | src/services/file.service.ts:99 | the trimmed string is `s[a..b]` with only white space before `a` and after `b` |
| Text.TrimEmptyIff | src/services/file.service.ts:95 | `trim().length === 0` holds exactly when the whole name is white space (both directions) |
| Text.TrimIdempotent | src/services/file.service.ts:113 | trimming a trimmed term changes nothing |
| Text.IsSpace | src/services/file.service.ts:95 | every character `trim()` strips is a single UTF-16 code unit, so stripping code points strips the same units |
| Text.LastIndexOf | src/utils/helpers.ts:43 | `lastIndexOf` returns -1 or the position of the character, and no later position holds it |
| Text.LastIndexOfAppend | src/utils/helpers.ts:42-44 | the last dot of `a + "." + b` is the one after `a` when `b` has no dot |
| Text.NatToString | src/models/share.model.ts:105 | `n.toString(radix)` is non-empty, uses only digits of the radix, and has no leading zero |
| Text.ParseNatToString | src/models/share.model.ts:105 | reading the rendered digits back gives the number (round trip) |
| Text.NatToStringInjective | src/models/share.model.ts:105 | different times render to different base-36 strings |
| Ordering.First | src/models/user.model.ts:59-65 | `rows[0]` is absent exactly when no row matches; otherwise it is a matching row with no matching row before it |
| Ordering.FirstMapped | src/models/file.model.ts:108-139 | rewriting the matching rows in place, without changing which rows match, rewrites the first match the same way |
| Ordering.Filter | src/models/file.model.ts:81-92 | `WHERE` keeps exactly the qualifying rows (both directions), each at most as often as before |
| Ordering.FilterCounts | src/models/share.model.ts:69-91 | `WHERE` keeps every occurrence of a qualifying row and no occurrence of any other |
| Ordering.FilterAll | src/models/file.model.ts:81-92 | the filter returns the whole table exactly when every row qualifies |
| Ordering.FilterMembership | src/models/share.model.ts:69-79 | a row is in the filter's result exactly when it is in the table and qualifies |
| Ordering.FilterKeepsKeysUnique | src/models/share.model.ts:161-169 | deleting rows keeps a unique key unique |
| Ordering.FilterLength | src/models/file.model.ts:141-149 | the filter is as long as the table exactly when every row qualifies, which is how `delete` reports whether it removed a row |
| Ordering.FilterAppend | src/models/file.model.ts:151-160 | filtering distributes over appending rows, which is how a count grows |
| Ordering.Insert | src/models/share.model.ts:69-79 | inserting into a sorted list gives a sorted permutation of the list plus the new row |
| Ordering.SortDesc | src/models/file.model.ts:81-92 | `ORDER BY key DESC` returns a permutation of its input that is sorted newest first |
| Ordering.SortDescSameElements | src/models/share.model.ts:81-91 | sorting keeps exactly the same rows |
| Ordering.SortFilterMembership | src/models/share.model.ts:69-79 | a sorted filter holds exactly the qualifying rows of the table |
| Ordering.Page | src/models/file.model.ts:88-89 | `LIMIT/OFFSET` returns at most `limit` rows, namely the consecutive rows from position `offset`, and none when the offset is past the end |
| Ordering.Query | src/models/file.model.ts:81-106 | a page of a sorted filter is sorted, holds only qualifying rows of the table, and has the length `min(limit, count - offset)` |
| Ordering.QueryAll | src/models/file.model.ts:81-106 | a first page large enough for every qualifying row holds each as often as the filter does |
| Ordering.PageOfSorted | src/models/file.model.ts:81-92 | a page of a sorted listing is sorted and made of the listing's rows |
| Ordering.PagesCompose | src/services/file.service.ts:41-51 | two consecutive pages join into the page that spans both, so paging visits each row once, in order |
| Ordering.PageAll | src/services/file.service.ts:41-51 | a first page at least as large as the listing is the whole listing |
| Ordering.Somes | src/services/share.service.ts:220 | `filter(x => x !== null)` keeps the value of every present entry and nothing else |
| Ordering.SomesAppend | src/services/share.service.ts:193-220 | dropping the nulls distributes over concatenation, so kept values stay in the order of their entries |
| Ordering.SomesAllPresent | src/services/share.service.ts:220 | with no null entry the values come out one for one, in order |
| Ordering.SomesAllAbsent | src/services/share.service.ts:220 | with only null entries the result is empty |
| Like.SearchPattern | src/models/file.model.ts:102 | the search pattern is the term wrapped in `%`, two characters longer |
| Like.ILike | src/models/file.model.ts:98 | a pattern without `%`, `_` or `\` matches exactly the strings equal to it up to case |
| Like.PercentMatchesAll | src/models/file.model.ts:98 | `%` alone matches every string |
| Like.LeadingPercent | src/models/file.model.ts:98 | a leading `%` matches exactly when the rest matches some suffix (both directions) |
| Like.LiteralPrefix | src/models/file.model.ts:98 | for a term without wildcards, `term%` matches exactly the strings that start with the term, ignoring case |
| Like.LiteralSearchIsSubstring | src/models/file.model.ts:98-103 | for a term without wildcards, `ILIKE '%term%'` holds exactly when the term occurs in the string, ignoring case |
| Like.UnderscoreMatchesAnyNonEmpty | src/models/file.model.ts:98-103 | searching for `_` matches every non-empty name, since `_` is a wildcard the search does not escape |
| Uri.Utf8 | src/services/storage.service.ts:70 | a code point encodes to 1 to 4 UTF-8 bytes, and to its own value exactly when it is ASCII |
| Uri.EncodeURIComponent | src/services/storage.service.ts:70 | the encoding is never shorter than its input |
| Uri.DecodeEscape | src/services/storage.service.ts:70 | percent-decoding a run of `%XX` escapes gives back the escaped bytes |
| Uri.DecodeEncode | src/services/storage.service.ts:70 | decoding `encodeURIComponent(s)` gives the UTF-8 bytes of `s` (round trip) |
| Uri.EncodeIdentityIff | src/services/storage.service.ts:70 | a path is left unchanged by the encoding exactly when every character is unreserved |
| Helpers.SanitizeFileName | src/utils/helpers.ts:47-49 | the result holds only `[a-zA-Z0-9._-]` and has as many UTF-16 units as the input |
| Helpers.SanitizeIdentityIff | src/utils/helpers.ts:47-49 | a name is unchanged by sanitizing exactly when it holds only safe characters |
| Helpers.SanitizeIdempotent | src/utils/helpers.ts:47-49 | sanitizing twice is sanitizing once |
| Helpers.SanitizeInPlace | src/utils/helpers.ts:47-49 | without astral characters, each position keeps a safe character and gets `_` otherwise |
| Helpers.GetFileExtension | src/utils/helpers.ts:51-53 | the extension is the lower-cased text after the last dot (the whole name when there is no dot) and holds no dot |
| Helpers.ExtensionWithoutDot | src/utils/helpers.ts:51-53 | a name without a dot is its own extension, lower-cased |
| Helpers.GenerateUniqueFileName | src/utils/helpers.ts:39-45 | the generated name has the same extension as the original |
| Helpers.GenerateWithoutDot | src/utils/helpers.ts:39-45 | a name without a dot is used as both the base and the extension |
| Helpers.GenerateWithDot | src/utils/helpers.ts:39-45 | with a dot after position 0, the name is the base, `_timestamp_random`, then the original's text from the last dot |
| Helpers.GenerateLeadingDot | src/utils/helpers.ts:43-44 | when the only dot opens the name, the empty text before it falls back to the whole name, so `.env` becomes `.env_<timestamp>_<random>.env` |
| UserModel.Create | src/models/user.model.ts:31-50 | a new user has the fresh id, the lower-cased email and the given name and provider; a password or picture is stored as given, or as null when it is missing or empty; the UNIQUE email fails exactly when the lower-cased email is taken |
| UserModel.FindByEmail | src/models/user.model.ts:52-66 | the lookup finds a row exactly when some row has the lower-cased email, and returns such a row |
| UserModel.FindById | src/models/user.model.ts:68-82 | the lookup finds a row exactly when the id exists, and returns a row with it |
| UserModel.Update | src/models/user.model.ts:84-123 | with nothing to write the update is `findById`; otherwise each row with the id takes every supplied name, password and picture, keeps every field left out, and gets the new time; other rows are unchanged, id, email, provider and creation time are never written, and the result is the lookup of the updated row |
| UserModel.CreatePreservesValid | src/models/user.model.ts:31-50 | creating a user keeps ids and emails unique |
| UserModel.UpdatePreservesValid | src/models/user.model.ts:84-123 | updating a user keeps ids and emails unique |
| UserModel.FindCreatedByEmail | src/models/user.model.ts:31-66 | a created user is found under any capitalisation of its email |
| UserModel.FindByEmailIgnoresCase | src/models/user.model.ts:52-66 | the lookup ignores the case of the query |
| UserModel.FindCreatedById | src/models/user.model.ts:31-82 | a created user is found by its id |
| FileModel.Create | src/models/file.model.ts:41-63 | the new row is appended with the fresh id and the given fields; a URL or MIME type is stored as given, or as null when it is missing or empty |
| FileModel.FindById | src/models/file.model.ts:65-79 | the lookup finds a row exactly when the id exists |
| FileModel.FindByUserId | src/models/file.model.ts:81-92 | the listing holds only the user's rows, newest first, and has `min(limit, count - offset)` of them |
| FileModel.SearchByUserId | src/models/file.model.ts:94-106 | the search returns only the user's rows whose name or original name matches `%term%`, newest first, and exactly `min(limit, matches - offset)` of them |
| FileModel.Update | src/models/file.model.ts:108-139 | without a name the update is `findById`; with one, exactly the rows with the id get the name and the new time, and the result is null exactly when the id is unknown; the returned row is the lookup of the id in the updated table (`RETURNING`) |
| FileModel.UpdateThenFind | src/models/file.model.ts:108-139 | after a rename, the lookup returns the renamed version of the row it returned before |
| FileModel.Delete | src/models/file.model.ts:141-149 | after a delete no row has the id, all other rows stay, and the result reports whether a row was removed |
| FileModel.CountByUserId | src/models/file.model.ts:151-160 | the number of the user's rows, `|Filter(t, ByUser(userId))|`: at most the table size, and zero exactly when the user owns no row (CountAfterCreate gives how it moves) |
| FileModel.CreatePreservesValid | src/models/file.model.ts:41-63 | creating with a fresh id keeps ids unique |
| FileModel.FindCreated | src/models/file.model.ts:41-79 | a created row is found by its id |
| FileModel.CountAfterCreate | src/models/file.model.ts:41-160 | creating a row raises its owner's count by one and leaves other counts unchanged |
| FileModel.FindByUserIdComplete | src/models/file.model.ts:81-92 | a first page at least as large as the count holds each of the user's rows as often as the table does, and no other row |
| FileModel.FindByUserIdPages | src/models/file.model.ts:81-92 | consecutive pages of the listing join into the larger page |
| FileModel.SearchLiteralSound | src/models/file.model.ts:94-106 | for a term without wildcards every result contains the term in its name or original name, ignoring case |
| FileModel.SearchLiteralComplete | src/models/file.model.ts:94-106 | with a large enough page every such row of the user is found |
| FileModel.SearchComplete | src/models/file.model.ts:94-106 | for any term, a first page at least as large as the number of matches holds each matching row of the user as often as the table does, and no other row |
| FileModel.SearchPages | src/models/file.model.ts:94-106 | consecutive pages of the search join into the larger page |
| StorageService.Create | src/services/storage.service.ts:168-175 | the factory returns the S3 backend exactly when the storage type is `s3` |
| StorageService.LocalKey | src/services/storage.service.ts:35-44 | the local key is the S3 key of the same upload under `users/` |
| StorageService.S3Key | src/services/storage.service.ts:89 | the key is the user id, `/`, the uuid, `_` and the original name, in that order |
| StorageService.Upload | src/services/storage.service.ts:34-113 | a local upload fails exactly when the key is taken or a step before the write fails, and then stores nothing; on S3 a failure before the put stores nothing, while the put itself replaces the key even when removing the temporary file or signing the URL fails afterwards; the bytes land under `users/<user>/<uuid>_<name>` locally or `<user>/<uuid>_<name>` on S3, and only S3 returns a URL |
| StorageService.Delete | src/services/storage.service.ts:48-127 | after a delete the path is gone and every other key is unchanged; deleting a missing key succeeds |
| StorageService.GetFileUrl | src/services/storage.service.ts:62-146 | a local URL exists exactly when the path does, and its suffix decodes back to the path; on S3 the URL is the signer's |
| StorageService.Download | src/services/storage.service.ts:73-165 | a download returns the stored bytes; a missing path fails, and an S3 object without a body is "File not found in S3" |
| StorageService.UploadThenDownload | src/services/storage.service.ts:34-165 | downloading what was just uploaded gives back the uploaded bytes |
| StorageService.UploadKeepsOthers | src/services/storage.service.ts:34-165 | an upload, failed or not, changes no other key |
| StorageService.LocalUploadHasUrl | src/services/storage.service.ts:34-71 | a local upload gets the download route plus its encoded path as URL |
| StorageService.FailedUploadLeavesObject | src/services/storage.service.ts:88-113 | an S3 upload that fails after the put reports failure, yet the object can be downloaded |
| StorageService.DeleteIdempotent | src/services/storage.service.ts:48-127 | deleting twice is deleting once |
| StorageService.DeleteAbsentIsNoOp | src/services/storage.service.ts:48-60 | locally, deleting an absent path changes nothing |
| StorageService.DeleteThenDownloadFails | src/services/storage.service.ts:48-165 | a deleted path can no longer be downloaded |
| StorageService.S3KeyInjective | src/services/storage.service.ts:89 | for one user and uuids of equal length, the key determines the uuid and the name |
| FileService.ConfiguredType | src/services/file.service.ts:28 | the recorded storage type is `s3` exactly when the configured type is `s3` |
| FileService.UploadFile | src/services/file.service.ts:14-39 | the upload fails exactly when storage fails, and then no row is created while the backend keeps whatever the storage call stored; otherwise the row records the key, the custom name or else the original name, the configured type, the signed URL and the MIME type (null when empty), and the backend holds the key |
| FileService.GetFiles | src/services/file.service.ts:41-51 | the page is the owner's listing for that limit and offset, newest first, with `min(limit, total - offset)` files, and the total is the owner's full count |
| FileService.GetFileById | src/services/file.service.ts:53-65 | null exactly for an unknown id, an error exactly when someone else owns the file, and otherwise the owner's row |
| FileService.DeleteFile | src/services/file.service.ts:67-82 | existence is checked, then ownership, then storage is deleted before the row, so a storage failure leaves the row; on success the backend is the storage delete of the file's path, of the same kind, holding every other key it held |
| FileService.RenameFile | src/services/file.service.ts:84-106 | existence is checked, then ownership, then a blank name is refused; otherwise the name is stored trimmed and only the renamed row changes |
| FileService.SearchFiles | src/services/file.service.ts:108-122 | a blank term lists like `getFiles`; otherwise the page of the owner's files matching the trimmed term, of length `min(limit, matches - offset)`, with `total` the size of the page |
| FileService.GetFileDownload | src/services/file.service.ts:124-141 | existence and ownership are checked before storage is read; for the owner the result is the row with the stored bytes when the read succeeds, and the read's error when it fails |
| FileService.GetFilesTotalIgnoresPage | src/services/file.service.ts:41-51 | the total does not depend on the page, and consecutive pages join |
| FileService.UploadRecordsBackendKind | src/services/file.service.ts:28 | under one configuration the recorded storage type is the kind of the backend the factory built |
| FileService.UploadThenDownload | src/services/file.service.ts:14-141 | after an upload the owner gets the row and the uploaded bytes, and any other user is refused |
| FileService.RenameThenGet | src/services/file.service.ts:53-106 | a rename is seen by the owner's next lookup, with the trimmed name |
| FileService.DeleteThenGone | src/services/file.service.ts:53-82 | after a delete the file is gone for its owner and a second delete is "File not found" |
| FileService.DeleteKeepsOtherObjects | src/services/file.service.ts:67-82 | deleting a file leaves every other stored object readable with the same bytes |
| FileService.FailedUploadLeavesOrphan | src/services/file.service.ts:19-38 | an S3 upload that fails after the put creates no row, but the object stays in the bucket |
| ShareModel.CreateShare | src/models/share.model.ts:47-67 | a new pair is appended with the fresh id; an existing pair keeps its row and takes the new permission and time |
| ShareModel.GetSharesByFileId | src/models/share.model.ts:69-79 | exactly the file's shares, each as often as the table holds it, newest first |
| ShareModel.GetSharesByUserId | src/models/share.model.ts:81-91 | exactly the shares granted to the user, each as often as the table holds it, newest first |
| ShareModel.DeleteShare | src/models/share.model.ts:93-101 | afterwards no row holds the pair, all other rows stay, and the result reports whether a row was removed |
| ShareModel.MakeToken | src/models/share.model.ts:105 | the token starts with the uuid followed by `-`, with the time's digits after it |
| ShareModel.CreateShareLink | src/models/share.model.ts:103-125 | appends a link whose token is the uuid, `-` and the time in base 36; the password is stored as given, or as null when it is missing or empty |
| ShareModel.GetShareLinkByToken | src/models/share.model.ts:127-141 | finds a link exactly when some link has the token |
| ShareModel.GetShareLinkByFileId | src/models/share.model.ts:143-159 | the file's newest link, absent exactly when the file has none |
| ShareModel.DeleteShareLink | src/models/share.model.ts:161-169 | afterwards the file has no link, other links stay, and the result reports whether one was removed |
| ShareModel.CheckFileAccess | src/models/share.model.ts:171-191 | access is granted exactly when a share of the pair exists, and then with a permission |
| ShareModel.CreateSharePreservesValid | src/models/share.model.ts:47-67 | the upsert keeps the conflict key `(file_id, shared_with_id)` unique |
| ShareModel.CreateShareUpserts | src/models/share.model.ts:47-67 | after the upsert exactly one row holds the pair, the returned one, and the access check reports its permission |
| ShareModel.CreateShareFrame | src/models/share.model.ts:47-64 | the upsert keeps every share of another pair and adds or rewrites only shares of its own pair |
| ShareModel.CreateShareKeepsOthers | src/models/share.model.ts:47-191 | sharing never changes another pair's access |
| ShareModel.TokenEncodesTime | src/models/share.model.ts:105 | the token's last dash follows the uuid, and the rest reads back as the creation time |
| ShareModel.FindCreatedLink | src/models/share.model.ts:103-141 | a new link is found by its token |
| ShareModel.CreateShareLinkPreservesValid | src/models/share.model.ts:103-125 | creating a link keeps tokens unique |
| ShareModel.DeletesPreserveValid | src/models/share.model.ts:93-169 | deleting shares or links keeps both keys unique |
| ShareService.ShareWithUser | src/services/share.service.ts:47-76 | the file must exist, then be the caller's, then the email must name a user other than the caller, and the call succeeds exactly when all of these hold; on success the result is the model's upsert of the pair with the caller as owner: the recipient gains access, links are untouched, every other pair's share is kept and no share of another pair appears |
| ShareService.RecipientOf | src/services/share.service.ts:93-103 | a `shared_with` entry carries the recipient's id, permission and time, with empty email and name when the user is gone |
| ShareService.Expired | src/services/share.service.ts:230 | a link without an expiry, or whose expiry is not before now, has not expired |
| ShareService.ExpiryIsFinal | src/services/share.service.ts:230 | a link expired at one time stays expired at every later time |
| ShareService.LinkUrl | src/services/share.service.ts:110-113 | the link is the configured front end (the default when none is set), `/shared/`, then the token |
| ShareService.GetShareInfo | src/services/share.service.ts:78-125 | for the owner, one entry per share newest first, and the latest link exactly when it has not expired |
| ShareService.VisibleLink | src/services/share.service.ts:105-119 | a link is shown exactly when it exists and has not expired, under `<frontend>/shared/<token>` |
| ShareService.CreateShareLink | src/services/share.service.ts:127-158 | for the owner, the new link, with the fresh id, the token, the given permission and expiry, and the caller's password (null when missing or empty), becomes the file's only link; other files' links and the shares are kept |
| ShareService.ClearLinks | src/services/share.service.ts:143-146 | the file's links are removed and nothing else |
| ShareService.LinkAfterClear | src/services/share.service.ts:143-155 | a link created after clearing is the file's only link |
| ShareService.RevokeShareAccess | src/services/share.service.ts:160-173 | for the owner, the pair's share is removed and its presence reported; other shares and links stay and no share is added |
| ShareService.RemoveShareLink | src/services/share.service.ts:175-188 | for the owner, every link of the file is removed and its presence reported; shares stay, other files' links stay and no link is added |
| ShareService.Entry | src/services/share.service.ts:194-216 | a share maps to null exactly when its file or owner is missing, and otherwise to the file's id, name, original name, MIME type, size and creation time, the owner's id, name and email, and the share's permission and time |
| ShareService.GetSharedFiles | src/services/share.service.ts:190-221 | every listed entry comes from a share with the user, and the list is no longer than the user's shares |
| ShareService.SharedFileListed | src/services/share.service.ts:190-221 | every share with the user whose file and owner exist is listed |
| ShareService.GetFileByShareToken | src/services/share.service.ts:223-244 | an unknown token is invalid, an expired link has expired, a link to a missing file finds no file; otherwise the call succeeds with the link's file at the link's permission |
| ShareService.CheckFileAccess | src/services/share.service.ts:246-258 | no access to a missing file, edit access for the owner, and otherwise exactly what a direct share grants |
| ShareService.ShareThenAccess | src/services/share.service.ts:47-258 | after sharing, the recipient's access check reports the requested permission |
| ShareService.RevokeThenNoAccess | src/services/share.service.ts:160-258 | after revocation that user has no access |
| ShareService.RemoveThenNoLink | src/services/share.service.ts:175-188 | after removal the file shows no link, no token resolves to a link of the file, and other files keep their links |
| ShareService.RotationInvalidatesOldTokens | src/services/share.service.ts:127-244 | after a new link is created, every earlier link's token is invalid |
| ShareService.ShownLinkResolves | src/services/share.service.ts:78-244 | a link the share info shows resolves to the file at its permission |
| ShareService.ExpiredLinkIsKept | src/services/share.service.ts:105-232 | an expired link is hidden from the info but still resolves, to "Share link has expired" |
| ShareService.TokenNamesOneLink | src/models/share.model.ts:127-141 | with unique tokens a link is the one its token names |
| ShareService.PasswordIgnored | src/services/share.service.ts:223-244 | token resolution gives the same answer with every password removed |

## Left out

- Controllers, routes, middlewares, authentication, passport, configuration loading and the HTTP app: these lie outside the modelled core.
- `formatFileSize` is left out because it is floating-point formatting for display.
- The helpers `sendSuccessResponse` and `sendErrorResponse` are left out because they only build HTTP responses.
- `Promise.all` concurrency in `getShareInfo` and `getSharedFiles` is not modelled. The per-share lookups are read-only, so the model evaluates them in order.
- Storage I/O is not modelled. A failure of a file-system or S3 call is the `fault` parameter (for an upload, the step at which it fails), and the signed URL the SDK would return is a parameter.
- Common.Error.Message: a storage error has the message of the file-system or S3 call that failed; the model does not carry it and shows a fixed placeholder instead.
- Directory creation (`ensureDir`, `ensureUploadDir`) is not modelled, because it has no observable effect on the stored keys.
- `path.join` normalisation is not modelled. Keys are joined with `/` as written, so a user id or file name containing `..` or `/` is not normalised.
- The `mapRowTo...` converters are not separate functions. A row is already the record they build.
- Text.ToLower: lower-cases ASCII letters only. JavaScript's full Unicode case mapping is not modelled.
- Like.ILike: ignores the case of ASCII letters only. PostgreSQL folds case by the database's locale, so it also matches `É` against `é`; that folding is not modelled.
- FileModel.FindByUserId: `limit` and `offset` are natural numbers. The negative values that PostgreSQL rejects are not modelled.
- Ordering.SortDesc: rows with equal `created_at` keep table order. PostgreSQL leaves their order unspecified, so this is one admissible order.
- The `created_at || new Date()` fallbacks in `getShareInfo` and `getSharedFiles` are not modelled, because every row in the model has a creation time.
- Deleting a file deletes none of its shares or links, because the code issues no such delete. A cascade declared in the database schema would remove them, but only the `users` table's schema is part of this model (src/config/database.ts creates nothing else).
- Helpers.GenerateUniqueFileName: the timestamp and the random string are parameters, because the clock and `Math.random` are outside the model.
- ShareService.GetSharedFiles: its ensures gives membership and a length bound. Order and completeness are stated by Ordering.SomesAppend and ShareService.SharedFileListed.
- Folders are not modelled: the code has none.
- The errors thrown by PostgreSQL itself are not modelled, except the UNIQUE email constraint on user creation.

## Notes on the source

- `searchFiles` reports `total` as the size of the returned page, not the number of matches. `getFiles` reports the full count. The model keeps this difference.
- `getShareInfo` hides an expired link but does not delete it, and its token still resolves to "Share link has expired".
- The search passes the term to `ILIKE` unescaped, so `%`, `_` and `\` in a search term act as wildcards and escapes (`Like.UnderscoreMatchesAnyNonEmpty`).
- An S3 upload that fails after the put (removing the temporary file or signing the URL throws) reports an error and creates no row, but leaves the object in the bucket with nothing referring to it (`FileService.FailedUploadLeavesOrphan`).
- A local upload refuses to overwrite an existing key (`fs.move` without `overwrite`), while S3 silently replaces the object. With fresh uuids neither case arises.

=== FILE: common.dfy ===
/** Types shared by every part of the drive backend model: identifiers,
    timestamps, the optional and failure wrappers, and the error messages
    the services throw. */
module Common {

  /** Row identifiers, user ids, tokens and paths are plain strings. */
  type Id = string

  /** A point in time in milliseconds since the epoch, as `Date.now()`
      reports it. */
  type Time = nat

  type Byte = b: int | 0 <= b < 256

  type Bytes = seq<Byte>

  /** The conventional Some/None wrapper, standing for `T | null`. */
  datatype Option<+T> = None | Some(value: T)

  /** The two permission levels a share or a share link may carry. */
  datatype Permission = View | Edit

  /** The `storage_type` column of a file row. */
  datatype StorageType = Local | S3

  /** One field of a partial update: left out of the update, or set. */
  datatype Field<+T> = Keep | Set(value: T)

  /** Which owner-only share operation refused a caller; each one throws
      its own "Unauthorized: ..." message. */
  datatype OwnerAction = ShareFile | ViewShareInfo | CreateLink | RevokeAccess | RemoveLink

  /** One variant per error the modelled code throws. Two of them are not
      thrown by the code itself: `StorageFailure` stands for whatever error
      the file system or the S3 SDK raises, and `DuplicateEmail` for the
      error PostgreSQL raises when the UNIQUE constraint on `users.email`
      rejects an insert. */
  datatype Error =
    | FileNotFound
    | NotOwner(action: OwnerAction)
    | UnauthorizedAccess
    | RecipientNotFound
    | SelfShare
    | EmptyName
    | RenameFailed
    | InvalidShareLink
    | ShareLinkExpired
    | NotFoundInS3
    | StorageFailure
    | DuplicateEmail
  {
    /** The message the error carries: the one the services throw, or, for
        a database error, the one PostgreSQL reports. A storage error keeps
        the message of the underlying call, which is not modelled; it is
        shown here by a fixed placeholder. */
    function Message(): string
    {
      match this
      case FileNotFound => "File not found"
      case NotOwner(ShareFile) => "Unauthorized: You can only share your own files"
      case NotOwner(ViewShareInfo) => "Unauthorized: You can only view share info for your own files"
      case NotOwner(CreateLink) => "Unauthorized: You can only create share links for your own files"
      case NotOwner(RevokeAccess) => "Unauthorized: You can only revoke access to your own files"
      case NotOwner(RemoveLink) => "Unauthorized: You can only remove share links for your own files"
      case UnauthorizedAccess => "Unauthorized access to file"
      case RecipientNotFound => "User with this email does not exist"
      case SelfShare => "Cannot share file with yourself"
      case EmptyName => "File name cannot be empty"
      case RenameFailed => "Failed to rename file"
      case InvalidShareLink => "Invalid or expired share link"
      case ShareLinkExpired => "Share link has expired"
      case NotFoundInS3 => "File not found in S3"
      case StorageFailure => "storage backend error"
      case DuplicateEmail => "duplicate key value violates unique constraint \"users_email_key\""
    }
  }

  /** The outcome of an operation that may throw one of the errors above. */
  datatype Result<+T> = Success(value: T) | Failure(error: Error)

  /** `s || null` on an optional string: the empty string counts as absent. */
  function NullIfEmpty(s: Option<string>): (r: Option<string>)
    ensures r.Some? <==> s.Some? && s.value != ""
    ensures r.Some? ==> r == s
  {
    if s.Some? && s.value != "" then s else None
  }

  /** `s || fallback` on a string. */
  function OrElse(s: string, fallback: string): (r: string)
    ensures s != "" ==> r == s
    ensures s == "" ==> r == fallback
  {
    if s != "" then s else fallback
  }
}

=== FILE: file_model.dfy ===
/** The `files` table as a sequence of rows, and the queries the file
    registry runs against it. */
module FileModel {
  import opened Common
  import opened Text
  import opened Ordering
  import opened Like

  datatype FileRow = FileRow(
    id: Id,
    userId: Id,
    name: string,
    originalName: string,
    filePath: string,
    fileUrl: Option<string>,
    storageType: StorageType,
    mimeType: Option<string>,
    size: nat,
    createdAt: Time,
    updatedAt: Time)

  datatype CreateFileData = CreateFileData(
    userId: Id,
    name: string,
    originalName: string,
    filePath: string,
    fileUrl: Option<string>,
    storageType: StorageType,
    mimeType: Option<string>,
    size: nat)

  type FileTable = seq<FileRow>

  /** `id` is the primary key. */
  ghost predicate Valid(t: FileTable)
  {
    forall i, j :: 0 <= i < j < |t| ==> t[i].id != t[j].id
  }

  predicate IdFresh(t: FileTable, id: Id)
  {
    forall i :: 0 <= i < |t| ==> t[i].id != id
  }

  function CreatedAt(f: FileRow): int
  {
    f.createdAt
  }

  function HasId(id: Id): FileRow -> bool
  {
    (f: FileRow) => f.id == id
  }

  function ByUser(userId: Id): FileRow -> bool
  {
    (f: FileRow) => f.userId == userId
  }

  /** `name ILIKE '%term%' OR original_name ILIKE '%term%'` for the user. */
  function ByUserMatching(userId: Id, term: string): FileRow -> bool
  {
    (f: FileRow) => f.userId == userId
                    && (ILike(f.name, SearchPattern(term)) || ILike(f.originalName, SearchPattern(term)))
  }

  /** `create`: appends one row with a fresh id; an empty or missing URL or
      MIME type is stored as null. */
  function Create(t: FileTable, data: CreateFileData, freshId: Id, now: Time): (r: (FileTable, FileRow))
    requires IdFresh(t, freshId)
    ensures var (t', f) := r;
            && t' == t + [f]
            && f.id == freshId
            && f.userId == data.userId && f.name == data.name && f.originalName == data.originalName
            && f.filePath == data.filePath && f.storageType == data.storageType && f.size == data.size
            && (f.fileUrl.None? <==> data.fileUrl.None? || data.fileUrl.value == "")
            && (f.fileUrl.Some? ==> f.fileUrl == data.fileUrl)
            && (f.mimeType.None? <==> data.mimeType.None? || data.mimeType.value == "")
            && (f.mimeType.Some? ==> f.mimeType == data.mimeType)
            && f.createdAt == now
  {
    var f := FileRow(freshId, data.userId, data.name, data.originalName, data.filePath,
                     NullIfEmpty(data.fileUrl), data.storageType, NullIfEmpty(data.mimeType),
                     data.size, now, now);
    (t + [f], f)
  }

  /** `findById`. */
  function FindById(t: FileTable, id: Id): (r: Option<FileRow>)
    ensures r.None? <==> IdFresh(t, id)
    ensures r.Some? ==> r.value in t && r.value.id == id
  {
    First(t, HasId(id))
  }

  /** `findByUserId`: the user's rows newest first, `offset` skipped, at
      most `limit` returned. */
  function FindByUserId(t: FileTable, userId: Id, limit: nat, offset: nat): (r: seq<FileRow>)
    ensures |r| <= limit
    ensures forall i :: 0 <= i < |r| ==> r[i] in t && r[i].userId == userId
    ensures SortedDesc(r, CreatedAt)
    ensures |r| == if offset < CountByUserId(t, userId) then Min(limit, CountByUserId(t, userId) - offset) else 0
  {
    Query(t, ByUser(userId), CreatedAt, limit, offset)
  }

  /** `searchByUserId`: the user's rows whose name or original name matches
      `%term%` under ILIKE, newest first, paged like `findByUserId`. */
  function SearchByUserId(t: FileTable, userId: Id, term: string, limit: nat, offset: nat): (r: seq<FileRow>)
    ensures |r| <= limit
    ensures forall i :: 0 <= i < |r| ==>
              && r[i] in t && r[i].userId == userId
              && (ILike(r[i].name, SearchPattern(term)) || ILike(r[i].originalName, SearchPattern(term)))
    ensures SortedDesc(r, CreatedAt)
    ensures |r| == if offset < MatchCount(t, userId, term) then Min(limit, MatchCount(t, userId, term) - offset) else 0
  {
    Query(t, ByUserMatching(userId, term), CreatedAt, limit, offset)
  }

  /** The number of the user's rows the search matches before paging. */
  function MatchCount(t: FileTable, userId: Id, term: string): (n: nat)
    ensures n <= |t|
  {
    |Filter(t, ByUserMatching(userId, term))|
  }

  /** `update`: without a name it is `findById`; with one, the row's name
      and `updated_at` change and the updated row is returned, or null
      when no row has the id. */
  function Update(t: FileTable, id: Id, name: Option<string>, now: Time): (r: (FileTable, Option<FileRow>))
    ensures name.None? ==> r == (t, FindById(t, id))
    ensures |r.0| == |t|
    ensures forall i :: 0 <= i < |t| && t[i].id != id ==> r.0[i] == t[i]
    ensures name.Some? ==> forall i :: 0 <= i < |t| && t[i].id == id ==>
              r.0[i] == t[i].(name := name.value, updatedAt := now)
    ensures r.1.None? <==> IdFresh(t, id)
    ensures name.Some? && r.1.Some? ==> r.1.value.name == name.value && r.1.value.id == id
    ensures r.1 == FindById(r.0, id)
  {
    if name.None? then (t, FindById(t, id))
    else
      var t' := seq(|t|, i requires 0 <= i < |t| =>
                  if t[i].id == id then t[i].(name := name.value, updatedAt := now) else t[i]);
      (t', FindById(t', id))
  }

  /** A rename keeps which row `findById` finds: the lookup afterwards
      returns the renamed version of the row it returned before. */
  lemma UpdateThenFind(t: FileTable, id: Id, name: string, now: Time)
    requires !IdFresh(t, id)
    ensures FindById(Update(t, id, Some(name), now).0, id)
            == Some(FindById(t, id).value.(name := name, updatedAt := now))
  {
    var t' := Update(t, id, Some(name), now).0;
    FirstMapped(t, t', HasId(id), (f: FileRow) => f.(name := name, updatedAt := now));
  }

  /** `delete`: removes the rows with the id and reports whether any was. */
  function Delete(t: FileTable, id: Id): (r: (FileTable, bool))
    ensures r.1 <==> !IdFresh(t, id)
    ensures IdFresh(r.0, id)
    ensures forall i :: 0 <= i < |t| && t[i].id != id ==> t[i] in r.0
    ensures forall i :: 0 <= i < |r.0| ==> r.0[i] in t
    ensures multiset(r.0) <= multiset(t)
  {
    var t' := Filter(t, (f: FileRow) => f.id != id);
    FilterLength(t, (f: FileRow) => f.id != id);
    (t', |t'| < |t|)
  }

  /** `countByUserId`: the number of the user's rows. */
  function CountByUserId(t: FileTable, userId: Id): (n: nat)
    ensures n <= |t|
    ensures n == 0 <==> forall i :: 0 <= i < |t| ==> t[i].userId != userId
  {
    var mine := Filter(t, ByUser(userId));
    assert |mine| > 0 ==> mine[0] in t && mine[0].userId == userId;
    |mine|
  }

  /** Creating a row keeps ids unique. */
  lemma CreatePreservesValid(t: FileTable, data: CreateFileData, freshId: Id, now: Time)
    requires Valid(t) && IdFresh(t, freshId)
    ensures Valid(Create(t, data, freshId, now).0)
  {
  }

  /** A created row is found by its id. */
  lemma FindCreated(t: FileTable, data: CreateFileData, freshId: Id, now: Time)
    requires IdFresh(t, freshId)
    ensures var (t', f) := Create(t, data, freshId, now);
            FindById(t', freshId) == Some(f)
  {
    var (t', f) := Create(t, data, freshId, now);
    assert t'[|t|] == f;
  }

  /** Create adds one to the owner's count and leaves every other user's
      count alone. */
  lemma CountAfterCreate(t: FileTable, data: CreateFileData, freshId: Id, now: Time, userId: Id)
    requires IdFresh(t, freshId)
    ensures CountByUserId(Create(t, data, freshId, now).0, userId)
            == CountByUserId(t, userId) + (if data.userId == userId then 1 else 0)
  {
    var (t', f) := Create(t, data, freshId, now);
    FilterAppend(t, [f], ByUser(userId));
  }

  /** With the first page large enough the listing holds every one of the
      user's rows exactly once. */
  lemma FindByUserIdComplete(t: FileTable, userId: Id, limit: nat)
    requires CountByUserId(t, userId) <= limit
    ensures forall f :: multiset(FindByUserId(t, userId, limit, 0))[f]
                        == if f.userId == userId then multiset(t)[f] else 0
  {
    QueryAll(t, ByUser(userId), CreatedAt, limit);
    FilterCounts(t, ByUser(userId));
  }

  /** Consecutive pages of the listing join into the larger page. */
  lemma FindByUserIdPages(t: FileTable, userId: Id, a: nat, b: nat, offset: nat)
    ensures FindByUserId(t, userId, a, offset) + FindByUserId(t, userId, b, offset + a)
            == FindByUserId(t, userId, a + b, offset)
  {
    PagesCompose(SortDesc(Filter(t, ByUser(userId)), CreatedAt), a, b, offset);
  }

  /** With the first page large enough the search holds every matching row
      of the user exactly once, whatever the term. */
  lemma SearchComplete(t: FileTable, userId: Id, term: string, limit: nat)
    requires MatchCount(t, userId, term) <= limit
    ensures forall f :: multiset(SearchByUserId(t, userId, term, limit, 0))[f]
                        == if ByUserMatching(userId, term)(f) then multiset(t)[f] else 0
  {
    QueryAll(t, ByUserMatching(userId, term), CreatedAt, limit);
    FilterCounts(t, ByUserMatching(userId, term));
  }

  /** Consecutive pages of the search join into the larger page. */
  lemma SearchPages(t: FileTable, userId: Id, term: string, a: nat, b: nat, offset: nat)
    ensures SearchByUserId(t, userId, term, a, offset) + SearchByUserId(t, userId, term, b, offset + a)
            == SearchByUserId(t, userId, term, a + b, offset)
  {
    PagesCompose(SortDesc(Filter(t, ByUserMatching(userId, term)), CreatedAt), a, b, offset);
  }

  /** For a term without ILIKE wildcards the search returns only rows whose
      name or original name contains the term, ignoring case. */
  lemma SearchLiteralSound(t: FileTable, userId: Id, term: string, limit: nat, offset: nat)
    requires IsLiteral(term)
    ensures forall f :: f in SearchByUserId(t, userId, term, limit, offset) ==>
              ContainsIgnoreCase(f.name, term) || ContainsIgnoreCase(f.originalName, term)
  {
    forall f | f in SearchByUserId(t, userId, term, limit, offset)
      ensures ContainsIgnoreCase(f.name, term) || ContainsIgnoreCase(f.originalName, term)
    {
      LiteralSearchIsSubstring(f.name, term);
      LiteralSearchIsSubstring(f.originalName, term);
    }
  }

  /** With a large enough first page the search returns every row of the
      user whose name or original name contains a literal term. */
  lemma SearchLiteralComplete(t: FileTable, userId: Id, term: string, limit: nat, f: FileRow)
    requires IsLiteral(term) && |t| <= limit
    requires f in t && f.userId == userId
    requires ContainsIgnoreCase(f.name, term) || ContainsIgnoreCase(f.originalName, term)
    ensures f in SearchByUserId(t, userId, term, limit, 0)
  {
    LiteralSearchIsSubstring(f.name, term);
    LiteralSearchIsSubstring(f.originalName, term);
    var matching := Filter(t, ByUserMatching(userId, term));
    var i :| 0 <= i < |t| && t[i] == f;
    assert f in matching;
    SortDescSameElements(matching, CreatedAt);
    PageAll(SortDesc(matching, CreatedAt), limit);
  }
}

=== FILE: file_service.dfy ===
/** The file service: uploads, listing, search, rename, delete and
    download over the file registry and the storage backend, each
    operation open to the file's owner only. */
module FileService {
  import opened Common
  import opened Text
  import opened Ordering
  import opened Like
  import FileModel
  import StorageService

  /** The registry and the backend the service works on. */
  datatype Drive = Drive(files: FileModel.FileTable, store: StorageService.Backend)

  /** `FileListResponse`. */
  datatype FileList = FileList(files: seq<FileModel.FileRow>, total: nat, limit: nat, offset: nat)

  /** `STORAGE_TYPE === 's3' ? 's3' : 'local'`. */
  function ConfiguredType(storageType: string): (k: StorageType)
    ensures k == S3 <==> storageType == "s3"
  {
    if storageType == "s3" then S3 else Local
  }

  /** True when the row exists and belongs to someone else. */
  predicate NotOwnedBy(t: FileModel.FileTable, fileId: Id, userId: Id)
  {
    var f := FileModel.FindById(t, fileId);
    f.Some? && f.value.userId != userId
  }

  /** The owner's row, when the id exists and belongs to the caller. */
  predicate OwnedBy(t: FileModel.FileTable, fileId: Id, userId: Id)
  {
    var f := FileModel.FindById(t, fileId);
    f.Some? && f.value.userId == userId
  }

  /** `uploadFile`: the bytes go to storage first, then a row is created
      that records the storage key and URL, the custom name when one is
      given and non-empty, the original name, the configured storage type,
      the MIME type and the size. A failed upload creates no row, but the
      backend stays as the upload left it. */
  function UploadFile(d: Drive, file: StorageService.UploadedFile, userId: Id, customName: Option<string>,
                      storageType: string, uuid: string, signedUrl: string, fault: StorageService.UploadFault,
                      freshId: Id, now: Time): (r: (Drive, Result<FileModel.FileRow>))
    requires FileModel.IdFresh(d.files, freshId)
    ensures r.0.store == StorageService.Upload(d.store, file, userId, uuid, signedUrl, fault).0
    ensures r.1.Failure? <==> StorageService.Upload(d.store, file, userId, uuid, signedUrl, fault).1.Failure?
    ensures r.1.Failure? ==> r.1.error == StorageFailure && r.0.files == d.files
    ensures r.1.Success? ==>
              var f := r.1.value;
              && r.0.files == d.files + [f]
              && f.id == freshId && f.userId == userId && f.createdAt == now
              && f.name == (if customName.Some? && customName.value != "" then customName.value else file.originalName)
              && f.originalName == file.originalName
              && f.size == file.size
              && f.storageType == ConfiguredType(storageType)
              && f.filePath == StorageService.UploadKey(d.store, userId, uuid, file.originalName)
              && StorageService.Holds(r.0.store, f.filePath)
              && (f.fileUrl.Some? <==> d.store.S3Bucket? && signedUrl != "")
              && (f.fileUrl.Some? ==> f.fileUrl.value == signedUrl)
              && (f.mimeType.None? <==> file.mimeType == "")
              && (f.mimeType.Some? ==> f.mimeType.value == file.mimeType)
  {
    var (store', res) := StorageService.Upload(d.store, file, userId, uuid, signedUrl, fault);
    match res
    case Failure(e) => (Drive(d.files, store'), Failure(e))
    case Success(stored) =>
      var data := FileModel.CreateFileData(
        userId,
        OrElse(if customName.Some? then customName.value else "", file.originalName),
        file.originalName,
        stored.filePath,
        NullIfEmpty(stored.fileUrl),
        ConfiguredType(storageType),
        NullIfEmpty(Some(file.mimeType)),
        file.size);
      var (files', f) := FileModel.Create(d.files, data, freshId, now);
      (Drive(files', store'), Success(f))
  }

  /** `getFiles`: one page of the owner's files, newest first, with the
      total number of the owner's files. */
  function GetFiles(t: FileModel.FileTable, userId: Id, limit: nat, offset: nat): (r: FileList)
    ensures r.total == |Filter(t, FileModel.ByUser(userId))|
    ensures r.limit == limit && r.offset == offset
    ensures |r.files| <= limit && |r.files| <= r.total
    ensures forall i :: 0 <= i < |r.files| ==> r.files[i] in t && r.files[i].userId == userId
    ensures SortedDesc(r.files, FileModel.CreatedAt)
    ensures r.files == FileModel.FindByUserId(t, userId, limit, offset)
    ensures |r.files| == if offset < r.total then Min(limit, r.total - offset) else 0
  {
    FileList(FileModel.FindByUserId(t, userId, limit, offset), FileModel.CountByUserId(t, userId), limit, offset)
  }

  /** `getFileById`: null for an unknown id, an error for anyone but the
      owner, and the row otherwise. */
  function GetFileById(t: FileModel.FileTable, fileId: Id, userId: Id): (r: Result<Option<FileModel.FileRow>>)
    ensures r == Success(None) <==> FileModel.IdFresh(t, fileId)
    ensures r == Failure(UnauthorizedAccess) <==> NotOwnedBy(t, fileId, userId)
    ensures r.Success? && r.value.Some? ==>
              r.value.value in t && r.value.value.id == fileId && r.value.value.userId == userId
  {
    match FileModel.FindById(t, fileId)
    case None => Success(None)
    case Some(f) => if f.userId != userId then Failure(UnauthorizedAccess) else Success(Some(f))
  }

  /** `deleteFile`: checks existence, then ownership, then removes the
      bytes from storage and only after that the row. A storage failure
      leaves the row in place. */
  function DeleteFile(d: Drive, fileId: Id, userId: Id, fault: bool): (r: Result<(Drive, bool)>)
    ensures FileModel.IdFresh(d.files, fileId) ==> r == Failure(FileNotFound)
    ensures NotOwnedBy(d.files, fileId, userId) ==> r == Failure(UnauthorizedAccess)
    ensures OwnedBy(d.files, fileId, userId) && fault ==> r == Failure(StorageFailure)
    ensures r.Success? <==> OwnedBy(d.files, fileId, userId) && !fault
    ensures r.Success? ==>
              var (d', deleted) := r.value;
              && deleted
              && FileModel.IdFresh(d'.files, fileId)
              && !StorageService.Holds(d'.store, FileModel.FindById(d.files, fileId).value.filePath)
              && (forall i :: 0 <= i < |d.files| && d.files[i].id != fileId ==> d.files[i] in d'.files)
              && (forall i :: 0 <= i < |d'.files| ==> d'.files[i] in d.files)
    ensures r.Success? ==>
              var f := FileModel.FindById(d.files, fileId).value;
              && StorageService.Delete(d.store, f.filePath, f.storageType, false) == Success(r.value.0.store)
              && StorageService.Kind(r.value.0.store) == StorageService.Kind(d.store)
              && forall k :: k != f.filePath ==> (StorageService.Holds(r.value.0.store, k) <==> StorageService.Holds(d.store, k))
  {
    match FileModel.FindById(d.files, fileId)
    case None => Failure(FileNotFound)
    case Some(f) =>
      if f.userId != userId then Failure(UnauthorizedAccess)
      else match StorageService.Delete(d.store, f.filePath, f.storageType, fault)
        case Failure(e) => Failure(e)
        case Success(store') =>
          var (files', deleted) := FileModel.Delete(d.files, fileId);
          Success((Drive(files', store'), deleted))
  }

  /** `renameFile`: checks existence, then ownership, then that the new
      name is not blank; the stored name is the trimmed one. */
  function RenameFile(t: FileModel.FileTable, fileId: Id, userId: Id, newName: string, now: Time)
    : (r: Result<(FileModel.FileTable, FileModel.FileRow)>)
    ensures FileModel.IdFresh(t, fileId) ==> r == Failure(FileNotFound)
    ensures NotOwnedBy(t, fileId, userId) ==> r == Failure(UnauthorizedAccess)
    ensures OwnedBy(t, fileId, userId) && AllSpace(newName) ==> r == Failure(EmptyName)
    ensures r.Success? <==> OwnedBy(t, fileId, userId) && !AllSpace(newName)
    ensures r.Success? ==>
              var (t', f) := r.value;
              && f.id == fileId && f.name == Trim(newName) && f.updatedAt == now
              && |t'| == |t|
              && (forall i :: 0 <= i < |t| && t[i].id != fileId ==> t'[i] == t[i])
              && (forall i :: 0 <= i < |t| && t[i].id == fileId ==> t'[i] == t[i].(name := Trim(newName), updatedAt := now))
  {
    match FileModel.FindById(t, fileId)
    case None => Failure(FileNotFound)
    case Some(f) =>
      if f.userId != userId then Failure(UnauthorizedAccess)
      else if |Trim(newName)| == 0 then
        TrimEmptyIff(newName);
        Failure(EmptyName)
      else
        TrimEmptyIff(newName);
        match FileModel.Update(t, fileId, Some(Trim(newName)), now)
        case (_, None) => Failure(RenameFailed)
        case (t', Some(g)) =>
          assert g in t' && g.id == fileId;
          Success((t', g))
  }

  /** `searchFiles`: a blank term lists like `getFiles`; otherwise the
      owner's files whose name or original name matches the trimmed term,
      with `total` the size of the returned page. */
  function SearchFiles(t: FileModel.FileTable, userId: Id, term: string, limit: nat, offset: nat): (r: FileList)
    ensures AllSpace(term) ==> r == GetFiles(t, userId, limit, offset)
    ensures !AllSpace(term) ==>
              && r.total == |r.files|
              && r.limit == limit && r.offset == offset
              && |r.files| <= limit
              && SortedDesc(r.files, FileModel.CreatedAt)
              && forall i :: 0 <= i < |r.files| ==>
                   && r.files[i] in t && r.files[i].userId == userId
                   && (ILike(r.files[i].name, SearchPattern(Trim(term)))
                       || ILike(r.files[i].originalName, SearchPattern(Trim(term))))
    ensures !AllSpace(term) ==> r.files == FileModel.SearchByUserId(t, userId, Trim(term), limit, offset)
    ensures !AllSpace(term) ==>
              var n := FileModel.MatchCount(t, userId, Trim(term));
              |r.files| == if offset < n then Min(limit, n - offset) else 0
  {
    TrimEmptyIff(term);
    if |Trim(term)| == 0 then GetFiles(t, userId, limit, offset)
    else
      var files := FileModel.SearchByUserId(t, userId, Trim(term), limit, offset);
      FileList(files, |files|, limit, offset)
  }

  /** `getFileDownload`: checks existence, then ownership, and only then
      reads the bytes from storage. */
  function GetFileDownload(d: Drive, fileId: Id, userId: Id, fault: bool): (r: Result<(FileModel.FileRow, Bytes)>)
    ensures FileModel.IdFresh(d.files, fileId) ==> r == Failure(FileNotFound)
    ensures NotOwnedBy(d.files, fileId, userId) ==> r == Failure(UnauthorizedAccess)
    ensures r.Success? ==>
              && OwnedBy(d.files, fileId, userId)
              && r.value.0 == FileModel.FindById(d.files, fileId).value
              && StorageService.Download(d.store, r.value.0.filePath, r.value.0.storageType, fault) == Success(r.value.1)
    ensures OwnedBy(d.files, fileId, userId) ==>
              var f := FileModel.FindById(d.files, fileId).value;
              var read := StorageService.Download(d.store, f.filePath, f.storageType, fault);
              && (read.Success? ==> r == Success((f, read.value)))
              && (read.Failure? ==> r == Failure(read.error))
  {
    match FileModel.FindById(d.files, fileId)
    case None => Failure(FileNotFound)
    case Some(f) =>
      if f.userId != userId then Failure(UnauthorizedAccess)
      else match StorageService.Download(d.store, f.filePath, f.storageType, fault)
        case Failure(e) => Failure(e)
        case Success(bytes) => Success((f, bytes))
  }

  /** The reported total does not depend on the page asked for, and
      consecutive pages join into the larger one. */
  lemma GetFilesTotalIgnoresPage(t: FileModel.FileTable, userId: Id, a: nat, b: nat, offset: nat)
    ensures GetFiles(t, userId, a, offset).total == GetFiles(t, userId, b, offset + a).total
    ensures GetFiles(t, userId, a, offset).files + GetFiles(t, userId, b, offset + a).files
            == GetFiles(t, userId, a + b, offset).files
  {
    FileModel.FindByUserIdPages(t, userId, a, b, offset);
  }

  /** When the backend comes from the factory under the same configuration,
      the storage type an upload records is the backend's own. */
  lemma UploadRecordsBackendKind(d: Drive, file: StorageService.UploadedFile, userId: Id, customName: Option<string>,
                                 storageType: string, uuid: string, signedUrl: string, freshId: Id, now: Time,
                                 disk: map<string, Bytes>, bucket: map<string, StorageService.S3Object>)
    requires FileModel.IdFresh(d.files, freshId)
    requires d.store == StorageService.Create(storageType, disk, bucket)
    requires UploadFile(d, file, userId, customName, storageType, uuid, signedUrl, StorageService.NoFault, freshId, now).1.Success?
    ensures var (d', f) := UploadFile(d, file, userId, customName, storageType, uuid, signedUrl, StorageService.NoFault, freshId, now);
            f.value.storageType == StorageService.Kind(d'.store)
  {
  }

  /** After an upload the owner gets the row by id and downloads the
      uploaded bytes; every other user is refused. */
  lemma UploadThenDownload(d: Drive, file: StorageService.UploadedFile, userId: Id, customName: Option<string>,
                           storageType: string, uuid: string, signedUrl: string, freshId: Id, now: Time, other: Id)
    requires FileModel.IdFresh(d.files, freshId)
    requires UploadFile(d, file, userId, customName, storageType, uuid, signedUrl, StorageService.NoFault, freshId, now).1.Success?
    requires other != userId
    ensures var (d', r) := UploadFile(d, file, userId, customName, storageType, uuid, signedUrl, StorageService.NoFault, freshId, now);
            var f := r.value;
            && GetFileById(d'.files, freshId, userId) == Success(Some(f))
            && GetFileDownload(d', freshId, userId, false) == Success((f, file.content))
            && GetFileById(d'.files, freshId, other) == Failure(UnauthorizedAccess)
            && GetFileDownload(d', freshId, other, false) == Failure(UnauthorizedAccess)
  {
    var (d', r) := UploadFile(d, file, userId, customName, storageType, uuid, signedUrl, StorageService.NoFault, freshId, now);
    var f := r.value;
    assert d'.files[|d.files|] == f;
    assert FileModel.FindById(d'.files, freshId) == Some(f);
    StorageService.UploadThenDownload(d.store, file, userId, uuid, signedUrl, f.storageType);
  }

  /** An upload to S3 that fails after the put creates no row, yet the
      object stays in the bucket: nothing refers to it any more. */
  lemma FailedUploadLeavesOrphan(d: Drive, file: StorageService.UploadedFile, userId: Id, customName: Option<string>,
                                 storageType: string, uuid: string, signedUrl: string, freshId: Id, now: Time)
    requires FileModel.IdFresh(d.files, freshId)
    requires d.store.S3Bucket?
    ensures var (d', r) := UploadFile(d, file, userId, customName, storageType, uuid, signedUrl,
                                      StorageService.AfterPut, freshId, now);
            && r.Failure? && d'.files == d.files
            && StorageService.Holds(d'.store, StorageService.S3Key(userId, uuid, file.originalName))
  {
  }

  /** A rename is visible to the owner's next lookup. */
  lemma RenameThenGet(t: FileModel.FileTable, fileId: Id, userId: Id, newName: string, now: Time)
    requires OwnedBy(t, fileId, userId) && !AllSpace(newName)
    ensures var (t', f) := RenameFile(t, fileId, userId, newName, now).value;
            GetFileById(t', fileId, userId) == Success(Some(f)) && f.name == Trim(newName)
  {
    FileModel.UpdateThenFind(t, fileId, Trim(newName), now);
  }

  /** A successful delete is final: the file is gone for its owner and
      a second delete reports "File not found". */
  lemma DeleteThenGone(d: Drive, fileId: Id, userId: Id)
    requires OwnedBy(d.files, fileId, userId)
    ensures var (d', _) := DeleteFile(d, fileId, userId, false).value;
            && GetFileById(d'.files, fileId, userId) == Success(None)
            && DeleteFile(d', fileId, userId, false) == Failure(FileNotFound)
  {
  }

  /** Deleting a file leaves every other stored object readable with the
      same bytes as before. */
  lemma DeleteKeepsOtherObjects(d: Drive, fileId: Id, userId: Id, path: string, storageType: StorageType)
    requires OwnedBy(d.files, fileId, userId)
    requires path != FileModel.FindById(d.files, fileId).value.filePath
    ensures var (d', _) := DeleteFile(d, fileId, userId, false).value;
            StorageService.Download(d'.store, path, storageType, false) == StorageService.Download(d.store, path, storageType, false)
  {
  }
}

=== FILE: helpers.dfy ===
/** The pure file-name helpers of the utilities module. The clock and the
    random source of `generateUniqueFileName` are parameters. */
module Helpers {
  import opened Text

  /** The characters `sanitizeFileName` keeps: `[a-zA-Z0-9._-]`. */
  predicate IsSafeChar(c: char)
  {
    ('a' <= c <= 'z') || ('A' <= c <= 'Z') || ('0' <= c <= '9') || c == '.' || c == '_' || c == '-'
  }

  predicate AllSafe(s: string)
  {
    forall i :: 0 <= i < |s| ==> IsSafeChar(s[i])
  }

  /** JavaScript strings are sequences of UTF-16 code units; a code point
      above U+FFFF takes two of them. */
  function Utf16Units(c: char): nat
  {
    if c as int >= 0x1_0000 then 2 else 1
  }

  function Utf16Length(s: string): nat
  {
    if |s| == 0 then 0 else Utf16Units(s[0]) + Utf16Length(s[1..])
  }

  /** The replacement for one code point: the regular expression works on
      code units, so a code point outside the BMP becomes two underscores. */
  function SanitizeChar(c: char): string
  {
    if IsSafeChar(c) then [c] else if Utf16Units(c) == 2 then "__" else "_"
  }

  /** `fileName.replace(/[^a-zA-Z0-9._-]/g, '_')`. */
  function SanitizeFileName(fileName: string): (r: string)
    ensures AllSafe(r)
    ensures Utf16Length(r) == Utf16Length(fileName)
    ensures |r| >= |fileName|
  {
    if |fileName| == 0 then ""
    else
      var head := SanitizeChar(fileName[0]);
      var tail := SanitizeFileName(fileName[1..]);
      assert Utf16Length(head) == Utf16Units(fileName[0]) by {
        if |head| == 2 {
          assert head[1..] == "_";
          assert head[1..][1..] == "";
          assert Utf16Length(head[1..]) == 1;
        } else {
          assert head[1..] == "";
        }
      }
      Utf16LengthAppend(head, tail);
      head + tail
  }

  lemma {:induction false} Utf16LengthAppend(a: string, b: string)
    ensures Utf16Length(a + b) == Utf16Length(a) + Utf16Length(b)
    decreases |a|
  {
    if |a| == 0 {
      assert a + b == b;
    } else {
      assert (a + b)[1..] == a[1..] + b;
      Utf16LengthAppend(a[1..], b);
    }
  }

  /** A name is left unchanged exactly when it is already safe. */
  lemma {:induction false} SanitizeIdentityIff(s: string)
    ensures SanitizeFileName(s) == s <==> AllSafe(s)
    decreases |s|
  {
    if |s| > 0 {
      SanitizeIdentityIff(s[1..]);
      var tail := SanitizeFileName(s[1..]);
      assert s == [s[0]] + s[1..];
      if IsSafeChar(s[0]) {
        assert SanitizeFileName(s) == [s[0]] + tail;
        if AllSafe(s) {
          assert forall i :: 0 <= i < |s[1..]| ==> s[1..][i] == s[i + 1];
        }
        if AllSafe(s[1..]) {
          assert forall i :: 1 <= i < |s| ==> s[i] == s[1..][i - 1];
        }
      } else {
        assert !AllSafe(s);
        var r := SanitizeFileName(s);
        assert r[0] == '_';
      }
    }
  }

  /** Sanitizing twice is sanitizing once. */
  lemma SanitizeIdempotent(s: string)
    ensures SanitizeFileName(SanitizeFileName(s)) == SanitizeFileName(s)
  {
    SanitizeIdentityIff(SanitizeFileName(s));
  }

  /** For names without code points outside the BMP the length is kept,
      every safe character stays where it was and every other character
      becomes `_` in its place. */
  lemma {:induction false} SanitizeInPlace(s: string)
    requires forall i :: 0 <= i < |s| ==> Utf16Units(s[i]) == 1
    ensures |SanitizeFileName(s)| == |s|
    ensures forall i :: 0 <= i < |s| ==>
              SanitizeFileName(s)[i] == (if IsSafeChar(s[i]) then s[i] else '_')
    decreases |s|
  {
    if |s| > 0 {
      assert forall i :: 0 <= i < |s[1..]| ==> s[1..][i] == s[i + 1];
      SanitizeInPlace(s[1..]);
      var r := SanitizeFileName(s);
      assert r == SanitizeChar(s[0]) + SanitizeFileName(s[1..]);
      assert |SanitizeChar(s[0])| == 1;
      assert forall i :: 1 <= i < |s| ==> r[i] == SanitizeFileName(s[1..])[i - 1];
    }
  }

  /** The text after the last `.` (the whole name when there is none):
      `fileName.split('.').pop()`. */
  function AfterLastDot(name: string): string
  {
    name[LastIndexOf(name, '.') + 1..]
  }

  /** `fileName.split('.').pop()?.toLowerCase() || ''`. */
  function GetFileExtension(fileName: string): (r: string)
    ensures forall i :: 0 <= i < |r| ==> r[i] != '.'
    ensures |r| <= |fileName| && r == ToLower(fileName[|fileName| - |r|..])
    ensures |r| < |fileName| ==> fileName[|fileName| - |r| - 1] == '.'
  {
    var ext := AfterLastDot(fileName);
    assert forall i :: 0 <= i < |ext| ==> LowerChar(ext[i]) != '.';
    ToLower(ext)
  }

  /** A name without a dot is its own extension (lower-cased). */
  lemma ExtensionWithoutDot(fileName: string)
    requires forall i :: 0 <= i < |fileName| ==> fileName[i] != '.'
    ensures GetFileExtension(fileName) == ToLower(fileName)
  {
  }

  /** `generateUniqueFileName`: `<base>_<timestamp>_<random>.<extension>`
      where the extension is the text after the last `.` and the base the
      text before it, or the whole name when that text is empty. */
  function GenerateUniqueFileName(originalName: string, timestamp: nat, random: string): (r: string)
    ensures GetFileExtension(r) == GetFileExtension(originalName)
  {
    var dot := LastIndexOf(originalName, '.');
    var extension := originalName[dot + 1..];
    var base := if dot > 0 then originalName[..dot] else originalName;
    var stem := base + "_" + NatToString(timestamp, 10) + "_" + random;
    LastIndexOfAppend(stem, '.', extension);
    assert AfterLastDot(stem + ['.'] + extension) == extension;
    stem + "." + extension
  }

  /** A dot-free name is used as both base and extension. */
  lemma GenerateWithoutDot(name: string, timestamp: nat, random: string)
    requires forall i :: 0 <= i < |name| ==> name[i] != '.'
    ensures GenerateUniqueFileName(name, timestamp, random)
            == name + "_" + NatToString(timestamp, 10) + "_" + random + "." + name
  {
    assert name[0..] == name;
  }

  /** With an interior dot the base is the text before the last dot and the
      generated name ends with `.` and the original extension. */
  lemma GenerateWithDot(name: string, timestamp: nat, random: string)
    requires 0 < LastIndexOf(name, '.')
    ensures var dot := LastIndexOf(name, '.');
            GenerateUniqueFileName(name, timestamp, random)
            == name[..dot] + "_" + NatToString(timestamp, 10) + "_" + random + name[dot..]
  {
    var dot := LastIndexOf(name, '.');
    var stem := name[..dot] + "_" + NatToString(timestamp, 10) + "_" + random;
    assert GenerateUniqueFileName(name, timestamp, random) == stem + "." + name[dot + 1..];
    DotThenRest(stem, name, dot);
  }

  /** When the only dot opens the name (`.env`), the text before it is empty,
      so the whole name is the base, and the generated name repeats it:
      `.env_<timestamp>_<random>.env`. */
  lemma GenerateLeadingDot(name: string, timestamp: nat, random: string)
    requires LastIndexOf(name, '.') == 0
    ensures GenerateUniqueFileName(name, timestamp, random)
            == name + "_" + NatToString(timestamp, 10) + "_" + random + name
  {
    var stem := name + "_" + NatToString(timestamp, 10) + "_" + random;
    assert GenerateUniqueFileName(name, timestamp, random) == stem + "." + name[1..];
    DotOpens(stem, name);
  }

  /** A name that opens with a dot is that dot followed by the rest. */
  lemma DotOpens(stem: string, name: string)
    requires 0 < |name| && name[0] == '.'
    ensures stem + "." + name[1..] == stem + name
  {
    assert "." + name[1..] == name;
    assert stem + "." + name[1..] == stem + ("." + name[1..]);
  }

  /** Re-attaching the text after a dot to a dot is the text from the dot. */
  lemma DotThenRest(stem: string, name: string, dot: nat)
    requires dot < |name| && name[dot] == '.'
    ensures stem + "." + name[dot + 1..] == stem + name[dot..]
  {
    assert name[dot..] == "." + name[dot + 1..];
  }
}

=== FILE: like.dfy ===
/** PostgreSQL `ILIKE` pattern matching, as used by the file search:
    `%` matches any run of characters, `_` any one character, a backslash
    makes the next pattern character literal, and letters compare without
    regard to (ASCII) case. */
module Like {
  import opened Text

  predicate SameIgnoringCase(a: char, b: char)
  {
    LowerChar(a) == LowerChar(b)
  }

  /** `s ILIKE p`. A pattern that ends in a lone backslash is an error in
      PostgreSQL; it matches nothing here. No search pattern has that shape:
      every search pattern ends in `%`, so its last character is never a
      backslash. A pattern without special characters matches exactly the
      strings equal to it up to case. */
  function ILike(s: string, p: string): (b: bool)
    ensures IsLiteral(p) ==> (b <==> |s| == |p| && ToLower(s) == ToLower(p))
    decreases |p| + |s|
  {
    if |p| == 0 then |s| == 0
    else if p[0] == '%' then ILike(s, p[1..]) || (|s| > 0 && ILike(s[1..], p))
    else if |s| == 0 then false
    else if p[0] == '_' then ILike(s[1..], p[1..])
    else if p[0] == '\\' then |p| > 1 && SameIgnoringCase(p[1], s[0]) && ILike(s[1..], p[2..])
    else
      var rest := ILike(s[1..], p[1..]);
      assert IsLiteral(p) ==> IsLiteral(p[1..]);
      assert s == [s[0]] + s[1..] && p == [p[0]] + p[1..];
      ToLowerConcat([s[0]], s[1..]);
      ToLowerConcat([p[0]], p[1..]);
      SameIgnoringCase(p[0], s[0]) && rest
  }

  /** The pattern the file search builds from its term: `%term%`. */
  function SearchPattern(term: string): (p: string)
    ensures |p| == |term| + 2 && p[0] == '%' && p[|p| - 1] == '%'
  {
    "%" + term + "%"
  }

  /** A term with none of the characters `ILIKE` treats specially. */
  predicate IsLiteral(t: string)
  {
    forall i :: 0 <= i < |t| ==> t[i] != '%' && t[i] != '_' && t[i] != '\\'
  }

  /** `%` alone matches every string. */
  lemma {:induction false} PercentMatchesAll(s: string)
    ensures ILike(s, "%")
    decreases |s|
  {
    if |s| > 0 {
      PercentMatchesAll(s[1..]);
    }
  }

  /** A leading `%` lets the rest of the pattern match any suffix. */
  lemma {:induction false} LeadingPercent(s: string, q: string)
    ensures ILike(s, "%" + q) <==> exists i :: 0 <= i <= |s| && ILike(s[i..], q)
    decreases |s|
  {
    var p := "%" + q;
    assert p[1..] == q;
    assert s[0..] == s;
    if |s| > 0 {
      LeadingPercent(s[1..], q);
      if ILike(s[1..], p) {
        var j :| 0 <= j <= |s[1..]| && ILike(s[1..][j..], q);
        assert s[1..][j..] == s[j + 1..];
      }
      if i :| 0 <= i <= |s| && ILike(s[i..], q) {
        if i > 0 {
          assert s[1..][i - 1..] == s[i..];
        }
      }
    }
  }

  /** A literal term followed by `%` matches exactly the strings that start
      with the term, ignoring case. */
  lemma {:induction false} LiteralPrefix(s: string, t: string)
    requires IsLiteral(t)
    ensures ILike(s, t + "%") <==> |t| <= |s| && ToLower(s[..|t|]) == ToLower(t)
    decreases |t|
  {
    var p := t + "%";
    if |t| == 0 {
      assert p == "%";
      PercentMatchesAll(s);
    } else {
      assert p[0] == t[0];
      assert p[1..] == t[1..] + "%";
      if |s| > 0 {
        LiteralPrefix(s[1..], t[1..]);
        if |t| <= |s| {
          assert s[..|t|] == [s[0]] + s[1..][..|t| - 1];
          assert t == [t[0]] + t[1..];
          ToLowerConcat([s[0]], s[1..][..|t| - 1]);
          ToLowerConcat([t[0]], t[1..]);
        }
      }
    }
  }

  /** Searching a literal term is case-insensitive substring search. */
  lemma LiteralSearchIsSubstring(s: string, t: string)
    requires IsLiteral(t)
    ensures ILike(s, SearchPattern(t)) <==> ContainsIgnoreCase(s, t)
  {
    assert SearchPattern(t) == "%" + (t + "%");
    LeadingPercent(s, t + "%");
    if ILike(s, SearchPattern(t)) {
      var i :| 0 <= i <= |s| && ILike(s[i..], t + "%");
      LiteralPrefix(s[i..], t);
      assert s[i..][..|t|] == s[i..i + |t|];
      assert OccursAt(s, t, i);
    }
    if ContainsIgnoreCase(s, t) {
      var i :| 0 <= i <= |s| && OccursAt(s, t, i);
      LiteralPrefix(s[i..], t);
      assert s[i..][..|t|] == s[i..i + |t|];
    }
  }

  /** `_` in a search term is a wildcard: searching for `_` matches every
      non-empty string, not only those containing an underscore. */
  lemma UnderscoreMatchesAnyNonEmpty(s: string)
    ensures ILike(s, SearchPattern("_")) <==> |s| > 0
  {
    assert SearchPattern("_") == "%" + "_%";
    LeadingPercent(s, "_%");
    assert "_%"[1..] == "%";
    if |s| > 0 {
      PercentMatchesAll(s[1..]);
      assert s[0..] == s;
    }
  }
}

=== FILE: ordering.dfy ===
/** Query building blocks shared by the registries: `WHERE` as a filter,
    `ORDER BY ... DESC` as a stable sort on a key, and `LIMIT ... OFFSET ...`
    as a page of the sorted rows. */
module Ordering {
  import opened Common

  /** The first row satisfying `p`, as `rows[0]` of a query without
      `ORDER BY` reads it; `None` when no row does. */
  function First<T>(s: seq<T>, p: T -> bool): (r: Option<T>)
    ensures r.None? <==> forall i :: 0 <= i < |s| ==> !p(s[i])
    ensures r.Some? ==> exists i ::
                          && 0 <= i < |s| && s[i] == r.value && p(s[i])
                          && forall j :: 0 <= j < i ==> !p(s[j])
  {
    if |s| == 0 then None
    else if p(s[0]) then Some(s[0])
    else
      var r := First(s[1..], p);
      assert forall i :: 1 <= i < |s| ==> s[i] == s[1..][i - 1];
      r
  }

  /** Rewriting the matching rows in place by `f`, without changing which
      rows match, rewrites the first match by `f`. */
  lemma {:induction false} FirstMapped<T>(s: seq<T>, s': seq<T>, p: T -> bool, f: T -> T)
    requires |s'| == |s|
    requires forall i :: 0 <= i < |s| ==> p(s'[i]) == p(s[i])
    requires forall i :: 0 <= i < |s| && p(s[i]) ==> s'[i] == f(s[i])
    ensures First(s', p) == if First(s, p).Some? then Some(f(First(s, p).value)) else None
    decreases |s|
  {
    if |s| > 0 && !p(s[0]) {
      assert forall i :: 0 <= i < |s| - 1 ==> s[1..][i] == s[i + 1] && s'[1..][i] == s'[i + 1];
      FirstMapped(s[1..], s'[1..], p, f);
    }
  }

  /** The rows of `s` satisfying `p`, in table order. */
  function Filter<T>(s: seq<T>, p: T -> bool): (r: seq<T>)
    ensures |r| <= |s|
    ensures forall i :: 0 <= i < |r| ==> r[i] in s && p(r[i])
    ensures forall i :: 0 <= i < |s| && p(s[i]) ==> s[i] in r
    ensures multiset(r) <= multiset(s)
  {
    if |s| == 0 then []
    else
      assert s == [s[0]] + s[1..];
      if p(s[0]) then [s[0]] + Filter(s[1..], p) else Filter(s[1..], p)
  }

  /** A filter keeps every occurrence of a qualifying row and no occurrence
      of any other. */
  lemma {:induction false} FilterCounts<T>(s: seq<T>, p: T -> bool)
    ensures forall x :: multiset(Filter(s, p))[x] == if p(x) then multiset(s)[x] else 0
    decreases |s|
  {
    if |s| > 0 {
      FilterCounts(s[1..], p);
      assert s == [s[0]] + s[1..];
      assert multiset(s) == multiset{s[0]} + multiset(s[1..]);
      if p(s[0]) {
        assert multiset(Filter(s, p)) == multiset{s[0]} + multiset(Filter(s[1..], p));
      }
    }
  }

  /** Filtering keeps everything exactly when every row qualifies. */
  lemma {:induction false} FilterAll<T>(s: seq<T>, p: T -> bool)
    ensures Filter(s, p) == s <==> forall x :: x in s ==> p(x)
  {
    if |s| > 0 && forall x :: x in s ==> p(x) {
      FilterAll(s[1..], p);
      assert s == [s[0]] + s[1..];
    }
    if Filter(s, p) == s {
      assert forall x :: x in s ==> x in Filter(s, p);
    }
  }

  /** Membership in a filtered sequence. */
  lemma FilterMembership<T>(s: seq<T>, p: T -> bool)
    ensures forall x :: x in Filter(s, p) <==> x in s && p(x)
  {
    var r := Filter(s, p);
    forall x | x in r
      ensures x in s && p(x)
    {
      var i :| 0 <= i < |r| && r[i] == x;
    }
    forall x | x in s && p(x)
      ensures x in r
    {
      var i :| 0 <= i < |s| && s[i] == x;
    }
  }

  /** No two elements of `s` share a key. */
  ghost predicate KeysUnique<T, K>(s: seq<T>, key: T -> K)
  {
    forall i, j :: 0 <= i < j < |s| ==> key(s[i]) != key(s[j])
  }

  /** A filter keeps a key that was unique unique. */
  lemma {:induction false} FilterKeepsKeysUnique<T, K>(s: seq<T>, p: T -> bool, key: T -> K)
    requires KeysUnique(s, key)
    ensures KeysUnique(Filter(s, p), key)
  {
    if |s| > 0 {
      var t := s[1..];
      assert forall i :: 0 <= i < |t| ==> t[i] == s[i + 1];
      FilterKeepsKeysUnique(t, p, key);
      var r' := Filter(t, p);
      if p(s[0]) {
        var r := [s[0]] + r';
        forall i, j | 0 <= i < j < |r|
          ensures key(r[i]) != key(r[j])
        {
          if i == 0 {
            assert r[j] == r'[j - 1] && r'[j - 1] in t;
            var k :| 0 <= k < |t| && t[k] == r'[j - 1];
            assert key(s[0]) != key(s[k + 1]);
          } else {
            assert r[i] == r'[i - 1] && r[j] == r'[j - 1];
          }
        }
        assert Filter(s, p) == r;
      } else {
        assert Filter(s, p) == r';
      }
    }
  }

  /** Filtering drops nothing exactly when every row qualifies. */
  lemma {:induction false} FilterLength<T>(s: seq<T>, p: T -> bool)
    ensures |Filter(s, p)| == |s| <==> forall i :: 0 <= i < |s| ==> p(s[i])
  {
    if |s| > 0 {
      FilterLength(s[1..], p);
      assert forall i :: 1 <= i < |s| ==> s[i] == s[1..][i - 1];
    }
  }

  /** Filtering distributes over concatenation, so it keeps the relative
      order of the rows it keeps. */
  lemma {:induction false} FilterAppend<T>(a: seq<T>, b: seq<T>, p: T -> bool)
    ensures Filter(a + b, p) == Filter(a, p) + Filter(b, p)
    decreases |a|
  {
    if |a| == 0 {
      assert a + b == b;
    } else {
      assert (a + b)[0] == a[0];
      assert (a + b)[1..] == a[1..] + b;
      FilterAppend(a[1..], b, p);
    }
  }

  /** `s` is in non-increasing order of `key`. */
  ghost predicate SortedDesc<T>(s: seq<T>, key: T -> int)
  {
    forall i, j :: 0 <= i < j < |s| ==> key(s[i]) >= key(s[j])
  }

  /** Puts `x` in front of the first element whose key is at most its own. */
  function Insert<T>(x: T, s: seq<T>, key: T -> int): (r: seq<T>)
    requires SortedDesc(s, key)
    ensures SortedDesc(r, key)
    ensures multiset(r) == multiset(s) + multiset{x}
    ensures |r| == |s| + 1
    ensures r[0] == x || (|s| > 0 && r[0] == s[0])
  {
    if |s| == 0 || key(s[0]) <= key(x) then [x] + s
    else
      var t := Insert(x, s[1..], key);
      assert s == [s[0]] + s[1..];
      assert key(t[0]) <= key(s[0]);
      [s[0]] + t
  }

  /** `ORDER BY key DESC`: a permutation of `s` sorted newest first. Rows
      with equal keys keep their table order; the database leaves that
      order unspecified. */
  function SortDesc<T>(s: seq<T>, key: T -> int): (r: seq<T>)
    ensures SortedDesc(r, key)
    ensures multiset(r) == multiset(s)
    ensures |r| == |s|
  {
    if |s| == 0 then []
    else
      assert s == [s[0]] + s[1..];
      Insert(s[0], SortDesc(s[1..], key), key)
  }

  /** Membership is preserved by sorting. */
  lemma SortDescSameElements<T>(s: seq<T>, key: T -> int)
    ensures forall x :: x in SortDesc(s, key) <==> x in s
  {
    var r := SortDesc(s, key);
    assert multiset(r) == multiset(s);
    forall x
      ensures x in r <==> x in s
    {
      assert x in r <==> x in multiset(r);
      assert x in s <==> x in multiset(s);
    }
  }

  /** Sorting a filtered sequence keeps exactly the qualifying elements. */
  lemma SortFilterMembership<T>(s: seq<T>, p: T -> bool, key: T -> int)
    ensures forall x :: x in SortDesc(Filter(s, p), key) <==> x in s && p(x)
  {
    FilterMembership(s, p);
    SortDescSameElements(Filter(s, p), key);
  }

  function Min(a: int, b: int): int
  {
    if a <= b then a else b
  }

  /** `LIMIT limit OFFSET offset`: skip `offset` rows, then keep at most
      `limit` of the rest. */
  function Page<T>(s: seq<T>, limit: nat, offset: nat): (r: seq<T>)
    ensures |r| <= limit
    ensures offset >= |s| ==> r == []
    ensures offset < |s| ==> |r| == Min(limit, |s| - offset)
    ensures forall i :: 0 <= i < |r| ==> r[i] == s[offset + i]
  {
    var start := Min(offset, |s|);
    s[start..Min(start + limit, |s|)]
  }

  /** `WHERE p ORDER BY key DESC LIMIT limit OFFSET offset`: a page of the
      qualifying rows, newest first. */
  function Query<T>(s: seq<T>, p: T -> bool, key: T -> int, limit: nat, offset: nat): (r: seq<T>)
    ensures |r| <= limit
    ensures forall i :: 0 <= i < |r| ==> r[i] in s && p(r[i])
    ensures SortedDesc(r, key)
    ensures |r| == if offset < |Filter(s, p)| then Min(limit, |Filter(s, p)| - offset) else 0
  {
    var rows := SortDesc(Filter(s, p), key);
    PageOfSorted(rows, key, limit, offset);
    QueryRows(s, p, key, limit, offset);
    Page(rows, limit, offset)
  }

  /** Every row of a page of the sorted filter is a qualifying row of the
      table. */
  lemma QueryRows<T>(s: seq<T>, p: T -> bool, key: T -> int, limit: nat, offset: nat)
    ensures forall i :: 0 <= i < |Page(SortDesc(Filter(s, p), key), limit, offset)| ==>
              Page(SortDesc(Filter(s, p), key), limit, offset)[i] in s && p(Page(SortDesc(Filter(s, p), key), limit, offset)[i])
  {
    var rows := SortDesc(Filter(s, p), key);
    var q := Page(rows, limit, offset);
    SortFilterMembership(s, p, key);
    forall i | 0 <= i < |q|
      ensures q[i] in s && p(q[i])
    {
      assert q[i] == rows[offset + i];
      assert rows[offset + i] in rows;
    }
  }

  /** A first page large enough to hold every qualifying row holds each of
      them exactly as often as the filter does. */
  lemma QueryAll<T>(s: seq<T>, p: T -> bool, key: T -> int, limit: nat)
    requires |Filter(s, p)| <= limit
    ensures multiset(Query(s, p, key, limit, 0)) == multiset(Filter(s, p))
  {
    PageAll(SortDesc(Filter(s, p), key), limit);
  }

  /** A page of a sorted listing is sorted and made of the listing's rows. */
  lemma PageOfSorted<T>(rows: seq<T>, key: T -> int, limit: nat, offset: nat)
    requires SortedDesc(rows, key)
    ensures SortedDesc(Page(rows, limit, offset), key)
    ensures forall i :: 0 <= i < |Page(rows, limit, offset)| ==> Page(rows, limit, offset)[i] in rows
  {
  }

  /** Two consecutive pages are the page that spans both, so paging
      through a listing visits every row once, in order. */
  lemma PagesCompose<T>(s: seq<T>, a: nat, b: nat, offset: nat)
    ensures Page(s, a, offset) + Page(s, b, offset + a) == Page(s, a + b, offset)
  {
  }

  /** A page that starts at the beginning and is large enough is the
      whole sequence. */
  lemma PageAll<T>(s: seq<T>, limit: nat)
    requires |s| <= limit
    ensures Page(s, limit, 0) == s
  {
  }
  /** The values of the present entries, in order: what
      `filter(x => x !== null)` keeps of a mapped list. */
  function Somes<U>(s: seq<Option<U>>): (r: seq<U>)
    ensures |r| <= |s|
    ensures forall i :: 0 <= i < |r| ==> Some(r[i]) in s
    ensures forall i :: 0 <= i < |s| && s[i].Some? ==> s[i].value in r
  {
    if |s| == 0 then []
    else
      assert s == [s[0]] + s[1..];
      if s[0].Some? then [s[0].value] + Somes(s[1..]) else Somes(s[1..])
  }

  /** Keeping the present entries distributes over concatenation, so the
      kept values appear in the order of their entries. */
  lemma {:induction false} SomesAppend<U>(a: seq<Option<U>>, b: seq<Option<U>>)
    ensures Somes(a + b) == Somes(a) + Somes(b)
    decreases |a|
  {
    if |a| == 0 {
      assert a + b == b;
    } else {
      assert (a + b)[1..] == a[1..] + b;
      SomesAppend(a[1..], b);
    }
  }

  /** When every entry is present nothing is dropped. */
  lemma {:induction false} SomesAllPresent<U>(s: seq<Option<U>>)
    requires forall i :: 0 <= i < |s| ==> s[i].Some?
    ensures |Somes(s)| == |s|
    ensures forall i :: 0 <= i < |s| ==> Somes(s)[i] == s[i].value
    decreases |s|
  {
    if |s| > 0 {
      SomesAllPresent(s[1..]);
    }
  }

  /** When every entry is absent nothing is kept. */
  lemma {:induction false} SomesAllAbsent<U>(s: seq<Option<U>>)
    requires forall i :: 0 <= i < |s| ==> s[i].None?
    ensures Somes(s) == []
    decreases |s|
  {
    if |s| > 0 {
      SomesAllAbsent(s[1..]);
    }
  }
}

=== FILE: share_model.dfy ===
/** The `file_shares` and `share_links` tables and the share registry's
    queries over them. */
module ShareModel {
  import opened Common
  import opened Text
  import opened Ordering

  /** A direct grant of one file to one user. */
  datatype FileShare = FileShare(
    id: Id,
    fileId: Id,
    ownerId: Id,
    sharedWithId: Id,
    permission: Permission,
    createdAt: Time)

  /** A capability token for one file. */
  datatype ShareLink = ShareLink(
    id: Id,
    fileId: Id,
    ownerId: Id,
    token: string,
    permission: Permission,
    expiresAt: Option<Time>,
    password: Option<string>,
    createdAt: Time)

  datatype CreateShareData = CreateShareData(
    fileId: Id,
    ownerId: Id,
    sharedWithId: Id,
    permission: Permission)

  datatype CreateShareLinkData = CreateShareLinkData(
    fileId: Id,
    ownerId: Id,
    permission: Permission,
    expiresAt: Option<Time>,
    password: Option<string>)

  /** Both share tables. */
  datatype ShareDb = ShareDb(shares: seq<FileShare>, links: seq<ShareLink>)

  /** The answer of an access check: `{ hasAccess, permission }`. */
  datatype Access = Access(hasAccess: bool, permission: Option<Permission>)

  /** The share table's conflict key `(file_id, shared_with_id)` is unique,
      and so is every link's token. */
  ghost predicate Valid(db: ShareDb)
  {
    KeysUnique(db.shares, ShareKey) && KeysUnique(db.links, LinkToken)
  }

  function ShareKey(s: FileShare): (Id, Id)
  {
    (s.fileId, s.sharedWithId)
  }

  function LinkToken(l: ShareLink): string
  {
    l.token
  }

  predicate IsPair(s: FileShare, fileId: Id, userId: Id)
  {
    s.fileId == fileId && s.sharedWithId == userId
  }

  predicate HasPair(db: ShareDb, fileId: Id, userId: Id)
  {
    exists i :: 0 <= i < |db.shares| && IsPair(db.shares[i], fileId, userId)
  }

  function ShareCreatedAt(s: FileShare): int
  {
    s.createdAt
  }

  function LinkCreatedAt(l: ShareLink): int
  {
    l.createdAt
  }

  /** `createShare`: `INSERT ... ON CONFLICT (file_id, shared_with_id) DO
      UPDATE SET permission, created_at`. A new pair gets a new row with
      the fresh id; an existing pair keeps its id and owner and takes the
      new permission and timestamp. */
  function CreateShare(db: ShareDb, data: CreateShareData, freshId: Id, now: Time): (r: (ShareDb, FileShare))
    ensures var (db', s) := r;
            && db'.links == db.links
            && IsPair(s, data.fileId, data.sharedWithId)
            && s.permission == data.permission && s.createdAt == now
            && s in db'.shares
            && (!HasPair(db, data.fileId, data.sharedWithId) ==>
                  db'.shares == db.shares + [s] && s.id == freshId && s.ownerId == data.ownerId)
            && (HasPair(db, data.fileId, data.sharedWithId) ==>
                  && |db'.shares| == |db.shares|
                  && forall i :: 0 <= i < |db.shares| ==>
                       db'.shares[i] == if IsPair(db.shares[i], data.fileId, data.sharedWithId)
                                        then db.shares[i].(permission := data.permission, createdAt := now)
                                        else db.shares[i])
  {
    if HasPair(db, data.fileId, data.sharedWithId) then
      var shares := seq(|db.shares|, i requires 0 <= i < |db.shares| =>
                      if IsPair(db.shares[i], data.fileId, data.sharedWithId)
                      then db.shares[i].(permission := data.permission, createdAt := now)
                      else db.shares[i]);
      var k :| 0 <= k < |db.shares| && IsPair(db.shares[k], data.fileId, data.sharedWithId);
      assert IsPair(shares[k], data.fileId, data.sharedWithId);
      match First(shares, (s: FileShare) => IsPair(s, data.fileId, data.sharedWithId))
      case Some(s) => (db.(shares := shares), s)
    else
      var s := FileShare(freshId, data.fileId, data.ownerId, data.sharedWithId, data.permission, now);
      (db.(shares := db.shares + [s]), s)
  }

  /** `getSharesByFileId`: the file's shares, each as often as the table
      holds it, newest first. */
  function GetSharesByFileId(db: ShareDb, fileId: Id): (r: seq<FileShare>)
    ensures forall x :: x in r <==> x in db.shares && x.fileId == fileId
    ensures forall x :: multiset(r)[x] == if x.fileId == fileId then multiset(db.shares)[x] else 0
    ensures SortedDesc(r, ShareCreatedAt)
  {
    var p := (s: FileShare) => s.fileId == fileId;
    SortFilterMembership(db.shares, p, ShareCreatedAt);
    FilterCounts(db.shares, p);
    SortDesc(Filter(db.shares, p), ShareCreatedAt)
  }

  /** `getSharesByUserId`: the shares granted to the user, each as often as
      the table holds it, newest first. */
  function GetSharesByUserId(db: ShareDb, userId: Id): (r: seq<FileShare>)
    ensures forall x :: x in r <==> x in db.shares && x.sharedWithId == userId
    ensures forall x :: multiset(r)[x] == if x.sharedWithId == userId then multiset(db.shares)[x] else 0
    ensures SortedDesc(r, ShareCreatedAt)
  {
    var p := (s: FileShare) => s.sharedWithId == userId;
    SortFilterMembership(db.shares, p, ShareCreatedAt);
    FilterCounts(db.shares, p);
    SortDesc(Filter(db.shares, p), ShareCreatedAt)
  }

  /** `deleteShare`: removes the rows of the pair, reporting whether any
      was removed. */
  function DeleteShare(db: ShareDb, fileId: Id, sharedWithId: Id): (r: (ShareDb, bool))
    ensures r.1 <==> HasPair(db, fileId, sharedWithId)
    ensures !HasPair(r.0, fileId, sharedWithId)
    ensures forall i :: 0 <= i < |db.shares| && !IsPair(db.shares[i], fileId, sharedWithId) ==>
              db.shares[i] in r.0.shares
    ensures forall i :: 0 <= i < |r.0.shares| ==> r.0.shares[i] in db.shares
    ensures r.0.links == db.links
  {
    var p := (s: FileShare) => !IsPair(s, fileId, sharedWithId);
    var shares := Filter(db.shares, p);
    FilterLength(db.shares, p);
    (db.(shares := shares), |shares| < |db.shares|)
  }

  /** The token of a new link: a v4 uuid, `-`, and the creation time in
      base 36. */
  function MakeToken(uuid: string, now: Time): (token: string)
    ensures |token| > |uuid| + 1 && token[..|uuid|] == uuid && token[|uuid|] == '-'
  {
    uuid + "-" + NatToString(now, 36)
  }

  predicate TokenFresh(db: ShareDb, token: string)
  {
    forall i :: 0 <= i < |db.links| ==> db.links[i].token != token
  }

  /** `createShareLink`: appends a link with a fresh token; a missing
      expiry stays null and an empty or missing password is stored as null. */
  function CreateShareLink(db: ShareDb, data: CreateShareLinkData, freshId: Id, uuid: string, now: Time)
    : (r: (ShareDb, ShareLink))
    requires TokenFresh(db, MakeToken(uuid, now))
    ensures var (db', l) := r;
            && db'.shares == db.shares
            && db'.links == db.links + [l]
            && l.id == freshId && l.fileId == data.fileId && l.ownerId == data.ownerId
            && l.token == MakeToken(uuid, now)
            && l.permission == data.permission && l.expiresAt == data.expiresAt
            && (l.password.None? <==> data.password.None? || data.password.value == "")
            && (l.password.Some? ==> l.password == data.password)
            && l.createdAt == now
  {
    var l := ShareLink(freshId, data.fileId, data.ownerId, MakeToken(uuid, now), data.permission,
                       data.expiresAt, NullIfEmpty(data.password), now);
    (db.(links := db.links + [l]), l)
  }

  function HasToken(token: string): ShareLink -> bool
  {
    (l: ShareLink) => l.token == token
  }

  /** `getShareLinkByToken`. */
  function GetShareLinkByToken(db: ShareDb, token: string): (r: Option<ShareLink>)
    ensures r.None? <==> TokenFresh(db, token)
    ensures r.Some? ==> r.value in db.links && r.value.token == token
  {
    First(db.links, HasToken(token))
  }

  predicate HasLink(db: ShareDb, fileId: Id)
  {
    exists i :: 0 <= i < |db.links| && db.links[i].fileId == fileId
  }

  /** `getShareLinkByFileId`: `ORDER BY created_at DESC LIMIT 1`, the
      file's most recent link. */
  function GetShareLinkByFileId(db: ShareDb, fileId: Id): (r: Option<ShareLink>)
    ensures r.None? <==> !HasLink(db, fileId)
    ensures r.Some? ==> r.value in db.links && r.value.fileId == fileId
    ensures r.Some? ==> forall i :: 0 <= i < |db.links| && db.links[i].fileId == fileId ==>
              db.links[i].createdAt <= r.value.createdAt
  {
    var mine := Filter(db.links, (l: ShareLink) => l.fileId == fileId);
    var rows := SortDesc(mine, LinkCreatedAt);
    SortDescSameElements(mine, LinkCreatedAt);
    FilterMembership(db.links, (l: ShareLink) => l.fileId == fileId);
    assert forall i :: 0 <= i < |db.links| && db.links[i].fileId == fileId ==> db.links[i] in rows;
    if |rows| == 0 then None
    else
      assert forall i :: 0 <= i < |db.links| && db.links[i].fileId == fileId ==>
               db.links[i].createdAt <= rows[0].createdAt by {
        forall i | 0 <= i < |db.links| && db.links[i].fileId == fileId
          ensures db.links[i].createdAt <= rows[0].createdAt
        {
          assert db.links[i] in rows;
          var j :| 0 <= j < |rows| && rows[j] == db.links[i];
          assert j == 0 || LinkCreatedAt(rows[0]) >= LinkCreatedAt(rows[j]);
        }
      }
      assert rows[0] in rows;
      Some(rows[0])
  }

  /** `deleteShareLink`: removes every link of the file, reporting whether
      any was removed. */
  function DeleteShareLink(db: ShareDb, fileId: Id): (r: (ShareDb, bool))
    ensures r.1 <==> HasLink(db, fileId)
    ensures !HasLink(r.0, fileId)
    ensures forall i :: 0 <= i < |db.links| && db.links[i].fileId != fileId ==> db.links[i] in r.0.links
    ensures forall i :: 0 <= i < |r.0.links| ==> r.0.links[i] in db.links
    ensures r.0.shares == db.shares
  {
    var p := (l: ShareLink) => l.fileId != fileId;
    var links := Filter(db.links, p);
    FilterLength(db.links, p);
    (db.(links := links), |links| < |db.links|)
  }

  /** `checkFileAccess`: a direct share of the file with the user grants
      access at the share's permission. */
  function CheckFileAccess(db: ShareDb, fileId: Id, userId: Id): (r: Access)
    ensures r.hasAccess <==> HasPair(db, fileId, userId)
    ensures r.hasAccess <==> r.permission.Some?
    ensures r.hasAccess ==> exists i :: 0 <= i < |db.shares| && IsPair(db.shares[i], fileId, userId)
                                         && db.shares[i].permission == r.permission.value
  {
    match First(db.shares, (s: FileShare) => IsPair(s, fileId, userId))
    case Some(s) => Access(true, Some(s.permission))
    case None => Access(false, None)
  }

  /** The upsert keeps the conflict key unique. */
  lemma CreateSharePreservesValid(db: ShareDb, data: CreateShareData, freshId: Id, now: Time)
    requires Valid(db)
    ensures Valid(CreateShare(db, data, freshId, now).0)
  {
    var (db', s) := CreateShare(db, data, freshId, now);
    if HasPair(db, data.fileId, data.sharedWithId) {
      assert forall i :: 0 <= i < |db.shares| ==> ShareKey(db'.shares[i]) == ShareKey(db.shares[i]);
    } else {
      assert forall i :: 0 <= i < |db.shares| ==> db'.shares[i] == db.shares[i];
      assert forall i :: 0 <= i < |db.shares| ==> ShareKey(db.shares[i]) != ShareKey(s);
    }
  }

  /** After the upsert exactly one share holds the pair, the one returned,
      and an access check reports its new permission. */
  lemma CreateShareUpserts(db: ShareDb, data: CreateShareData, freshId: Id, now: Time)
    requires Valid(db)
    ensures var (db', s) := CreateShare(db, data, freshId, now);
            && (exists k :: 0 <= k < |db'.shares| && db'.shares[k] == s
                            && forall j :: 0 <= j < |db'.shares| && IsPair(db'.shares[j], data.fileId, data.sharedWithId) ==> j == k)
            && CheckFileAccess(db', data.fileId, data.sharedWithId) == Access(true, Some(data.permission))
  {
    var (db', s) := CreateShare(db, data, freshId, now);
    CreateSharePreservesValid(db, data, freshId, now);
    var k :| 0 <= k < |db'.shares| && db'.shares[k] == s;
    forall j | 0 <= j < |db'.shares| && IsPair(db'.shares[j], data.fileId, data.sharedWithId)
      ensures j == k
    {
      assert ShareKey(db'.shares[j]) == ShareKey(db'.shares[k]);
    }
    assert IsPair(db'.shares[k], data.fileId, data.sharedWithId);
  }

  /** The upsert keeps every row of another pair and adds or rewrites only
      rows of its own pair. */
  lemma CreateShareFrame(db: ShareDb, data: CreateShareData, freshId: Id, now: Time)
    ensures var db' := CreateShare(db, data, freshId, now).0;
            && (forall i :: 0 <= i < |db.shares| && !IsPair(db.shares[i], data.fileId, data.sharedWithId) ==>
                  db.shares[i] in db'.shares)
            && (forall i :: 0 <= i < |db'.shares| ==>
                  db'.shares[i] in db.shares || IsPair(db'.shares[i], data.fileId, data.sharedWithId))
  {
    var (db', s) := CreateShare(db, data, freshId, now);
    if HasPair(db, data.fileId, data.sharedWithId) {
      forall i | 0 <= i < |db.shares| && !IsPair(db.shares[i], data.fileId, data.sharedWithId)
        ensures db.shares[i] in db'.shares
      {
        assert db'.shares[i] == db.shares[i];
      }
    } else {
      forall i | 0 <= i < |db.shares|
        ensures db.shares[i] in db'.shares
      {
        assert db'.shares[i] == db.shares[i];
      }
    }
  }

  /** Re-sharing never changes the shares of other pairs. */
  lemma CreateShareKeepsOthers(db: ShareDb, data: CreateShareData, freshId: Id, now: Time, fileId: Id, userId: Id)
    requires (fileId, userId) != (data.fileId, data.sharedWithId)
    ensures CheckFileAccess(CreateShare(db, data, freshId, now).0, fileId, userId) == CheckFileAccess(db, fileId, userId)
  {
    var db' := CreateShare(db, data, freshId, now).0;
    var p := (s: FileShare) => IsPair(s, fileId, userId);
    FirstUnchanged(db.shares, db'.shares, p);
  }

  /** Two tables that agree on every row satisfying `p`, position by
      position, with extra rows only failing `p`, give the same first match. */
  lemma {:induction false} FirstUnchanged(a: seq<FileShare>, b: seq<FileShare>, p: FileShare -> bool)
    requires |a| <= |b|
    requires forall i :: 0 <= i < |a| ==> (p(a[i]) || p(b[i])) ==> a[i] == b[i]
    requires forall i :: |a| <= i < |b| ==> !p(b[i])
    ensures First(a, p) == First(b, p)
    decreases |a|
  {
    if |a| > 0 {
      assert p(a[0]) <==> p(b[0]);
      if !p(a[0]) {
        FirstUnchanged(a[1..], b[1..], p);
      }
    }
  }

  /** The token ends with the creation time in base 36, which can be read
      back from it. */
  lemma TokenEncodesTime(uuid: string, now: Time)
    ensures var token := MakeToken(uuid, now);
            var dash := LastIndexOf(token, '-');
            dash == |uuid| && ParseNat(token[dash + 1..], 36) == now
  {
    var digits := NatToString(now, 36);
    assert forall i :: 0 <= i < |digits| ==> digits[i] != '-' by {
      forall i | 0 <= i < |digits|
        ensures digits[i] != '-'
      {
        assert DigitValue(digits[i]) >= 0;
      }
    }
    LastIndexOfAppend(uuid, '-', digits);
    assert MakeToken(uuid, now) == uuid + ['-'] + digits;
    assert MakeToken(uuid, now)[|uuid| + 1..] == digits;
    ParseNatToString(now, 36);
  }

  /** A new link is found by its token. */
  lemma FindCreatedLink(db: ShareDb, data: CreateShareLinkData, freshId: Id, uuid: string, now: Time)
    requires TokenFresh(db, MakeToken(uuid, now))
    ensures var (db', l) := CreateShareLink(db, data, freshId, uuid, now);
            GetShareLinkByToken(db', l.token) == Some(l)
  {
    var (db', l) := CreateShareLink(db, data, freshId, uuid, now);
    assert db'.links[|db.links|] == l;
  }

  /** Creating a link keeps tokens unique. */
  lemma CreateShareLinkPreservesValid(db: ShareDb, data: CreateShareLinkData, freshId: Id, uuid: string, now: Time)
    requires Valid(db) && TokenFresh(db, MakeToken(uuid, now))
    ensures Valid(CreateShareLink(db, data, freshId, uuid, now).0)
  {
  }

  /** Deleting rows keeps both constraints. */
  lemma DeletesPreserveValid(db: ShareDb, fileId: Id, userId: Id)
    requires Valid(db)
    ensures Valid(DeleteShare(db, fileId, userId).0)
    ensures Valid(DeleteShareLink(db, fileId).0)
  {
    var p := (s: FileShare) => !IsPair(s, fileId, userId);
    var q := (l: ShareLink) => l.fileId != fileId;
    assert DeleteShare(db, fileId, userId).0.shares == Filter(db.shares, p);
    assert DeleteShareLink(db, fileId).0.links == Filter(db.links, q);
    FilterKeepsKeysUnique(db.shares, p, ShareKey);
    FilterKeepsKeysUnique(db.links, q, LinkToken);
  }
}

=== FILE: share_service.dfy ===
/** The share service: sharing a file with another user, share links,
    revocation, the recipient's view of what is shared with them, token
    resolution and the access check. Every owner-only operation checks
    that the file exists before it checks the caller owns it. */
module ShareService {
  import opened Common
  import opened Text
  import opened Ordering
  import FileModel
  import UserModel
  import ShareModel

  /** The three registries the service reads and the share tables it writes. */
  datatype World = World(files: FileModel.FileTable, users: UserModel.UserTable, db: ShareModel.ShareDb)

  /** One `shared_with` entry of the share info. */
  datatype Recipient = Recipient(userId: Id, email: string, name: string, permission: Permission, sharedAt: Time)

  /** The `share_link` part of the share info. */
  datatype LinkInfo = LinkInfo(enabled: bool, link: string, token: string, permission: Permission, expiresAt: Option<Time>)

  datatype ShareInfo = ShareInfo(sharedWith: seq<Recipient>, shareLink: Option<LinkInfo>)

  /** `shared_by` of a shared file. */
  datatype Sharer = Sharer(id: Id, name: string, email: string)

  /** One entry of the recipient's list of files shared with them. */
  datatype SharedFileInfo = SharedFileInfo(
    id: Id,
    name: string,
    originalName: string,
    mimeType: Option<string>,
    size: nat,
    createdAt: Time,
    sharedBy: Sharer,
    permission: Permission,
    sharedAt: Time)

  /** The front-end address used when none is configured. */
  const DefaultFrontendUrl: string := "http://localhost:3000"

  /** The file row the registry returns for an id. */
  function FileOf(w: World, fileId: Id): Option<FileModel.FileRow>
  {
    FileModel.FindById(w.files, fileId)
  }

  /** The file exists and `userId` is not its owner. */
  predicate OwnedByOther(w: World, fileId: Id, userId: Id)
  {
    FileOf(w, fileId).Some? && FileOf(w, fileId).value.userId != userId
  }

  /** The file exists and `userId` owns it. */
  predicate Owns(w: World, fileId: Id, userId: Id)
  {
    FileOf(w, fileId).Some? && FileOf(w, fileId).value.userId == userId
  }

  /** A link has expired when it has an expiry strictly before now; a link
      without an expiry never expires. */
  predicate Expired(l: ShareModel.ShareLink, now: Time): (b: bool)
    ensures l.expiresAt.None? ==> !b
    ensures l.expiresAt.Some? && now <= l.expiresAt.value ==> !b
  {
    l.expiresAt.Some? && l.expiresAt.value < now
  }

  /** The email names a user other than the owner. */
  predicate Shareable(w: World, email: string, ownerId: Id)
  {
    UserModel.FindByEmail(w.users, email).Some? && UserModel.FindByEmail(w.users, email).value.id != ownerId
  }

  /** `shareWithUser`: the file must exist, the caller must own it, the
      email must belong to a user, and that user must not be the caller;
      then the pair is upserted with the caller as owner. */
  function ShareWithUser(w: World, fileId: Id, ownerId: Id, email: string, permission: Permission,
                         freshId: Id, now: Time): (r: Result<(ShareModel.ShareDb, FileModel.FileRow, ShareModel.FileShare)>)
    ensures FileOf(w, fileId).None? ==> r == Failure(FileNotFound)
    ensures OwnedByOther(w, fileId, ownerId) ==> r == Failure(NotOwner(ShareFile))
    ensures Owns(w, fileId, ownerId) && !UserModel.HasEmail(w.users, ToLower(email)) ==> r == Failure(RecipientNotFound)
    ensures (&& Owns(w, fileId, ownerId) && UserModel.FindByEmail(w.users, email).Some?
             && UserModel.FindByEmail(w.users, email).value.id == ownerId) ==> r == Failure(SelfShare)
    ensures r.Success? <==> Owns(w, fileId, ownerId) && Shareable(w, email, ownerId)
    ensures r.Success? ==>
              var (db', f, s) := r.value;
              var recipient := UserModel.FindByEmail(w.users, email);
              && Owns(w, fileId, ownerId) && FileOf(w, fileId) == Some(f)
              && recipient.Some? && recipient.value.email == ToLower(email) && recipient.value.id != ownerId
              && s.fileId == fileId && s.sharedWithId == recipient.value.id
              && s.permission == permission && s.createdAt == now
              && (!ShareModel.HasPair(w.db, fileId, s.sharedWithId) ==> s.ownerId == ownerId)
              && ShareModel.CheckFileAccess(db', fileId, s.sharedWithId).hasAccess
              && db'.links == w.db.links
    ensures r.Success? ==>
              var (db', _, s) := r.value;
              && (db', s) == ShareModel.CreateShare(w.db, ShareModel.CreateShareData(fileId, ownerId, s.sharedWithId, permission), freshId, now)
              && (forall i :: 0 <= i < |w.db.shares| && !ShareModel.IsPair(w.db.shares[i], fileId, s.sharedWithId) ==>
                    w.db.shares[i] in db'.shares)
              && (forall i :: 0 <= i < |db'.shares| ==>
                    db'.shares[i] in w.db.shares || ShareModel.IsPair(db'.shares[i], fileId, s.sharedWithId))
  {
    match FileOf(w, fileId)
    case None => Failure(FileNotFound)
    case Some(f) =>
      if f.userId != ownerId then Failure(NotOwner(ShareFile))
      else
        ToLowerIdempotent(email);
        match UserModel.FindByEmail(w.users, ToLower(email))
        case None => Failure(RecipientNotFound)
        case Some(u) =>
          if u.id == ownerId then Failure(SelfShare)
          else
            var (db', s) := ShareModel.CreateShare(w.db, ShareModel.CreateShareData(fileId, ownerId, u.id, permission), freshId, now);
            ShareModel.CreateShareFrame(w.db, ShareModel.CreateShareData(fileId, ownerId, u.id, permission), freshId, now);
            assert ShareModel.HasPair(db', fileId, u.id) by {
              var k :| 0 <= k < |db'.shares| && db'.shares[k] == s;
            }
            Success((db', f, s))
  }

  /** One `shared_with` entry: the recipient's email and name, or empty
      strings when the recipient no longer exists. */
  function RecipientOf(users: UserModel.UserTable, s: ShareModel.FileShare): (r: Recipient)
    ensures r.userId == s.sharedWithId && r.permission == s.permission && r.sharedAt == s.createdAt
    ensures UserModel.IdFresh(users, s.sharedWithId) ==> r.email == "" && r.name == ""
    ensures !UserModel.IdFresh(users, s.sharedWithId) ==>
              var u := UserModel.FindById(users, s.sharedWithId).value;
              r.email == u.email && r.name == u.name
  {
    match UserModel.FindById(users, s.sharedWithId)
    case None => Recipient(s.sharedWithId, "", "", s.permission, s.createdAt)
    case Some(u) => Recipient(s.sharedWithId, u.email, u.name, s.permission, s.createdAt)
  }

  /** The address a link is shared under: the configured front end (the
      default one when none is set), `/shared/`, then the token. */
  function LinkUrl(frontendUrl: string, token: string): (url: string)
    ensures var base := if frontendUrl != "" then frontendUrl else DefaultFrontendUrl;
            && |url| == |base| + 8 + |token|
            && url[..|base|] == base
            && url[|base|..|base| + 8] == "/shared/"
            && url[|base| + 8..] == token
  {
    OrElse(frontendUrl, DefaultFrontendUrl) + "/shared/" + token
  }

  /** `getShareInfo`: for the owner, one entry per share of the file,
      newest first, and the file's latest link unless it has expired. An
      expired link is hidden, not removed: the operation writes nothing. */
  function GetShareInfo(w: World, fileId: Id, userId: Id, now: Time, frontendUrl: string): (r: Result<ShareInfo>)
    ensures FileOf(w, fileId).None? ==> r == Failure(FileNotFound)
    ensures OwnedByOther(w, fileId, userId) ==> r == Failure(NotOwner(ViewShareInfo))
    ensures r.Success? <==> Owns(w, fileId, userId)
    ensures r.Success? ==>
              var shares := ShareModel.GetSharesByFileId(w.db, fileId);
              var latest := ShareModel.GetShareLinkByFileId(w.db, fileId);
              && |r.value.sharedWith| == |shares|
              && (forall i :: 0 <= i < |shares| ==> r.value.sharedWith[i] == RecipientOf(w.users, shares[i]))
              && (r.value.shareLink.Some? <==> latest.Some? && !Expired(latest.value, now))
              && (r.value.shareLink.Some? ==>
                    r.value.shareLink.value
                    == LinkInfo(true, LinkUrl(frontendUrl, latest.value.token), latest.value.token,
                                latest.value.permission, latest.value.expiresAt))
  {
    match FileOf(w, fileId)
    case None => Failure(FileNotFound)
    case Some(f) =>
      if f.userId != userId then Failure(NotOwner(ViewShareInfo))
      else
        var shares := ShareModel.GetSharesByFileId(w.db, fileId);
        Success(ShareInfo(Recipients(w.users, shares),
                          VisibleLink(ShareModel.GetShareLinkByFileId(w.db, fileId), now, frontendUrl)))
  }

  /** The recipients of the shares, one for one. */
  function Recipients(users: UserModel.UserTable, shares: seq<ShareModel.FileShare>): (r: seq<Recipient>)
    ensures |r| == |shares| && forall i :: 0 <= i < |shares| ==> r[i] == RecipientOf(users, shares[i])
  {
    seq(|shares|, i requires 0 <= i < |shares| => RecipientOf(users, shares[i]))
  }

  /** What `getShareInfo` shows of the latest link: nothing when there is
      none or it has expired. */
  function VisibleLink(latest: Option<ShareModel.ShareLink>, now: Time, frontendUrl: string): (r: Option<LinkInfo>)
    ensures r.Some? <==> latest.Some? && !Expired(latest.value, now)
    ensures r.Some? ==>
              r.value == LinkInfo(true, LinkUrl(frontendUrl, latest.value.token), latest.value.token,
                                  latest.value.permission, latest.value.expiresAt)
  {
    match latest
    case None => None
    case Some(l) =>
      if Expired(l, now) then None
      else Some(LinkInfo(true, LinkUrl(frontendUrl, l.token), l.token, l.permission, l.expiresAt))
  }

  /** `createShareLink`: for the owner, every existing link of the file is
      deleted and a new one created, so the file ends with exactly one link. */
  function CreateShareLink(w: World, fileId: Id, ownerId: Id, permission: Permission, expiresAt: Option<Time>,
                           password: Option<string>, freshId: Id, uuid: string, now: Time)
    : (r: Result<(ShareModel.ShareDb, ShareModel.ShareLink)>)
    requires ShareModel.TokenFresh(w.db, ShareModel.MakeToken(uuid, now))
    ensures FileOf(w, fileId).None? ==> r == Failure(FileNotFound)
    ensures OwnedByOther(w, fileId, ownerId) ==> r == Failure(NotOwner(CreateLink))
    ensures r.Success? <==> Owns(w, fileId, ownerId)
    ensures r.Success? ==>
              var (db', l) := r.value;
              && db'.shares == w.db.shares
              && l in db'.links
              && l.fileId == fileId && l.ownerId == ownerId && l.permission == permission
              && l.expiresAt == expiresAt && l.token == ShareModel.MakeToken(uuid, now) && l.createdAt == now
              && l.id == freshId
              && (l.password.None? <==> password.None? || password.value == "")
              && (l.password.Some? ==> l.password == password)
              && (forall i :: 0 <= i < |db'.links| && db'.links[i].fileId == fileId ==> db'.links[i] == l)
              && (forall i :: 0 <= i < |w.db.links| && w.db.links[i].fileId != fileId ==> w.db.links[i] in db'.links)
              && (forall i :: 0 <= i < |db'.links| ==> db'.links[i] == l || db'.links[i] in w.db.links)
  {
    match FileOf(w, fileId)
    case None => Failure(FileNotFound)
    case Some(f) =>
      if f.userId != ownerId then Failure(NotOwner(CreateLink))
      else
        var cleared := ClearLinks(w.db, fileId);
        var data := ShareModel.CreateShareLinkData(fileId, ownerId, permission, expiresAt, password);
        var (db', l) := ShareModel.CreateShareLink(cleared, data, freshId, uuid, now);
        LinkAfterClear(w.db, cleared, data, freshId, uuid, now);
        Success((db', l))
  }

  /** The first half of link rotation: the file's links are deleted when
      it has one. */
  function ClearLinks(db: ShareModel.ShareDb, fileId: Id): (r: ShareModel.ShareDb)
    ensures !ShareModel.HasLink(r, fileId)
    ensures r.shares == db.shares
    ensures forall i :: 0 <= i < |r.links| ==> r.links[i] in db.links
    ensures forall i :: 0 <= i < |db.links| && db.links[i].fileId != fileId ==> db.links[i] in r.links
  {
    if ShareModel.GetShareLinkByFileId(db, fileId).Some? then ShareModel.DeleteShareLink(db, fileId).0 else db
  }

  /** The second half: a link created after the file's links were cleared
      is the file's only link, and the other links are kept. */
  lemma LinkAfterClear(db: ShareModel.ShareDb, cleared: ShareModel.ShareDb, data: ShareModel.CreateShareLinkData,
                       freshId: Id, uuid: string, now: Time)
    requires ShareModel.TokenFresh(db, ShareModel.MakeToken(uuid, now))
    requires cleared == ClearLinks(db, data.fileId)
    ensures ShareModel.TokenFresh(cleared, ShareModel.MakeToken(uuid, now))
    ensures var (db', l) := ShareModel.CreateShareLink(cleared, data, freshId, uuid, now);
            && db'.shares == db.shares
            && l in db'.links
            && (forall i :: 0 <= i < |db'.links| && db'.links[i].fileId == data.fileId ==> db'.links[i] == l)
            && (forall i :: 0 <= i < |db.links| && db.links[i].fileId != data.fileId ==> db.links[i] in db'.links)
            && (forall i :: 0 <= i < |db'.links| ==> db'.links[i] == l || db'.links[i] in db.links)
  {
    forall i | 0 <= i < |cleared.links|
      ensures cleared.links[i].token != ShareModel.MakeToken(uuid, now)
    {
      assert cleared.links[i] in db.links;
    }
    var (db', l) := ShareModel.CreateShareLink(cleared, data, freshId, uuid, now);
    assert db'.links[|cleared.links|] == l;
    assert forall i :: 0 <= i < |cleared.links| ==> db'.links[i] == cleared.links[i];
  }

  /** `revokeShareAccess`: for the owner, removes the direct share of the
      file with the given user, reporting whether there was one. */
  function RevokeShareAccess(w: World, fileId: Id, sharedWithId: Id, ownerId: Id): (r: Result<(ShareModel.ShareDb, bool)>)
    ensures FileOf(w, fileId).None? ==> r == Failure(FileNotFound)
    ensures OwnedByOther(w, fileId, ownerId) ==> r == Failure(NotOwner(RevokeAccess))
    ensures r.Success? <==> Owns(w, fileId, ownerId)
    ensures r.Success? ==>
              var (db', removed) := r.value;
              && (removed <==> ShareModel.HasPair(w.db, fileId, sharedWithId))
              && !ShareModel.HasPair(db', fileId, sharedWithId)
              && db'.links == w.db.links
              && (forall i :: 0 <= i < |w.db.shares| && !ShareModel.IsPair(w.db.shares[i], fileId, sharedWithId) ==>
                    w.db.shares[i] in db'.shares)
              && (forall i :: 0 <= i < |db'.shares| ==> db'.shares[i] in w.db.shares)
  {
    match FileOf(w, fileId)
    case None => Failure(FileNotFound)
    case Some(f) =>
      if f.userId != ownerId then Failure(NotOwner(RevokeAccess))
      else Success(ShareModel.DeleteShare(w.db, fileId, sharedWithId))
  }

  /** `removeShareLink`: for the owner, removes every link of the file,
      reporting whether there was one. */
  function RemoveShareLink(w: World, fileId: Id, ownerId: Id): (r: Result<(ShareModel.ShareDb, bool)>)
    ensures FileOf(w, fileId).None? ==> r == Failure(FileNotFound)
    ensures OwnedByOther(w, fileId, ownerId) ==> r == Failure(NotOwner(RemoveLink))
    ensures r.Success? <==> Owns(w, fileId, ownerId)
    ensures r.Success? ==>
              var (db', removed) := r.value;
              && (removed <==> ShareModel.HasLink(w.db, fileId))
              && !ShareModel.HasLink(db', fileId)
              && db'.shares == w.db.shares
              && (forall i :: 0 <= i < |w.db.links| && w.db.links[i].fileId != fileId ==> w.db.links[i] in db'.links)
              && (forall i :: 0 <= i < |db'.links| ==> db'.links[i] in w.db.links)
  {
    match FileOf(w, fileId)
    case None => Failure(FileNotFound)
    case Some(f) =>
      if f.userId != ownerId then Failure(NotOwner(RemoveLink))
      else Success(ShareModel.DeleteShareLink(w.db, fileId))
  }

  /** The entry `getSharedFiles` maps one share to: null when the share's
      file or owner no longer exists, and otherwise the file's fields, its
      owner, and the share's permission and time. */
  function Entry(files: FileModel.FileTable, users: UserModel.UserTable, s: ShareModel.FileShare)
    : (r: Option<SharedFileInfo>)
    ensures r.None? <==> FileModel.FindById(files, s.fileId).None? || UserModel.FindById(users, s.ownerId).None?
    ensures r.Some? ==> && r.value.id == s.fileId && r.value.sharedBy.id == s.ownerId
                        && r.value.permission == s.permission && r.value.sharedAt == s.createdAt
    ensures r.Some? ==>
              var f := FileModel.FindById(files, s.fileId).value;
              && r.value.name == f.name && r.value.originalName == f.originalName
              && r.value.mimeType == f.mimeType && r.value.size == f.size && r.value.createdAt == f.createdAt
    ensures r.Some? ==>
              var o := UserModel.FindById(users, s.ownerId).value;
              r.value.sharedBy.name == o.name && r.value.sharedBy.email == o.email
  {
    match (FileModel.FindById(files, s.fileId), UserModel.FindById(users, s.ownerId))
    case (Some(f), Some(o)) =>
      Some(SharedFileInfo(f.id, f.name, f.originalName, f.mimeType, f.size, f.createdAt,
                          Sharer(o.id, o.name, o.email), s.permission, s.createdAt))
    case _ => None
  }

  /** The shares mapped to their entries, one for one. */
  function Entries(files: FileModel.FileTable, users: UserModel.UserTable, shares: seq<ShareModel.FileShare>)
    : (r: seq<Option<SharedFileInfo>>)
    ensures |r| == |shares| && forall i :: 0 <= i < |shares| ==> r[i] == Entry(files, users, shares[i])
  {
    seq(|shares|, i requires 0 <= i < |shares| => Entry(files, users, shares[i]))
  }

  /** `getSharedFiles`: the entries of the user's shares (newest first)
      without the null ones. Every listed entry comes from a share with the
      user. */
  function GetSharedFiles(w: World, userId: Id): (r: seq<SharedFileInfo>)
    ensures |r| <= |ShareModel.GetSharesByUserId(w.db, userId)|
    ensures forall i :: 0 <= i < |r| ==>
              exists s :: s in w.db.shares && s.sharedWithId == userId && Entry(w.files, w.users, s) == Some(r[i])
  {
    var shares := ShareModel.GetSharesByUserId(w.db, userId);
    EntriesFromShares(w.files, w.users, shares, w.db.shares, userId);
    Somes(Entries(w.files, w.users, shares))
  }

  /** Every entry kept from a list of shares with the user is the entry of
      one of the user's shares in the table. */
  lemma EntriesFromShares(files: FileModel.FileTable, users: UserModel.UserTable, shares: seq<ShareModel.FileShare>,
                          all: seq<ShareModel.FileShare>, userId: Id)
    requires forall s :: s in shares ==> s in all && s.sharedWithId == userId
    ensures forall i :: 0 <= i < |Somes(Entries(files, users, shares))| ==>
              exists s :: s in all && s.sharedWithId == userId && Entry(files, users, s) == Some(Somes(Entries(files, users, shares))[i])
  {
    var es := Entries(files, users, shares);
    var r := Somes(es);
    forall i | 0 <= i < |r|
      ensures exists s :: s in all && s.sharedWithId == userId && Entry(files, users, s) == Some(r[i])
    {
      var j :| 0 <= j < |es| && es[j] == Some(r[i]);
      assert shares[j] in shares;
    }
  }

  /** `getFileByShareToken`: an unknown token is invalid, an expired link
      has expired, a link whose file is gone finds no file; otherwise the
      file with the link's permission. The link's password plays no part. */
  function GetFileByShareToken(w: World, token: string, now: Time): (r: Result<(FileModel.FileRow, Permission)>)
    ensures ShareModel.TokenFresh(w.db, token) ==> r == Failure(InvalidShareLink)
    ensures !ShareModel.TokenFresh(w.db, token) ==>
              var l := ShareModel.GetShareLinkByToken(w.db, token).value;
              && (Expired(l, now) ==> r == Failure(ShareLinkExpired))
              && (!Expired(l, now) && FileOf(w, l.fileId).None? ==> r == Failure(FileNotFound))
              && (!Expired(l, now) && FileOf(w, l.fileId).Some? ==> r == Success((FileOf(w, l.fileId).value, l.permission)))
              && (r.Success? ==> !Expired(l, now) && FileOf(w, l.fileId) == Some(r.value.0) && r.value.1 == l.permission)
    ensures r.Success? ==> !ShareModel.TokenFresh(w.db, token)
  {
    match ShareModel.GetShareLinkByToken(w.db, token)
    case None => Failure(InvalidShareLink)
    case Some(l) =>
      if Expired(l, now) then Failure(ShareLinkExpired)
      else match FileOf(w, l.fileId)
        case None => Failure(FileNotFound)
        case Some(f) => Success((f, l.permission))
  }

  /** `checkFileAccess`: no access to a missing file, edit access for the
      owner, and otherwise whatever the user's direct share grants. */
  function CheckFileAccess(w: World, fileId: Id, userId: Id): (r: ShareModel.Access)
    ensures FileOf(w, fileId).None? ==> r == ShareModel.Access(false, None)
    ensures Owns(w, fileId, userId) ==> r == ShareModel.Access(true, Some(Edit))
    ensures OwnedByOther(w, fileId, userId) ==> r == ShareModel.CheckFileAccess(w.db, fileId, userId)
    ensures r.hasAccess <==> Owns(w, fileId, userId) || (FileOf(w, fileId).Some? && ShareModel.HasPair(w.db, fileId, userId))
  {
    match FileOf(w, fileId)
    case None => ShareModel.Access(false, None)
    case Some(f) =>
      if f.userId == userId then ShareModel.Access(true, Some(Edit))
      else ShareModel.CheckFileAccess(w.db, fileId, userId)
  }

  /** After sharing with a user (in tables whose conflict key is unique),
      that user's access check reports the requested permission. */
  lemma ShareThenAccess(w: World, fileId: Id, ownerId: Id, email: string, permission: Permission, freshId: Id, now: Time)
    requires ShareModel.Valid(w.db)
    requires Owns(w, fileId, ownerId) && Shareable(w, email, ownerId)
    ensures var (db', _, s) := ShareWithUser(w, fileId, ownerId, email, permission, freshId, now).value;
            && ShareModel.Valid(db')
            && CheckFileAccess(w.(db := db'), fileId, s.sharedWithId) == ShareModel.Access(true, Some(permission))
  {
    var u := UserModel.FindByEmail(w.users, ToLower(email)).value;
    ToLowerIdempotent(email);
    var data := ShareModel.CreateShareData(fileId, ownerId, u.id, permission);
    ShareModel.CreateShareUpserts(w.db, data, freshId, now);
    ShareModel.CreateSharePreservesValid(w.db, data, freshId, now);
  }

  /** After the owner revokes a user's share, that user has no access. */
  lemma RevokeThenNoAccess(w: World, fileId: Id, sharedWithId: Id, ownerId: Id)
    requires RevokeShareAccess(w, fileId, sharedWithId, ownerId).Success?
    requires sharedWithId != ownerId
    ensures var (db', _) := RevokeShareAccess(w, fileId, sharedWithId, ownerId).value;
            CheckFileAccess(w.(db := db'), fileId, sharedWithId) == ShareModel.Access(false, None)
  {
  }

  /** After the owner removes the file's links, the file shows no link and
      no token resolves to a link of the file; other files keep theirs. */
  lemma RemoveThenNoLink(w: World, fileId: Id, ownerId: Id, token: string)
    requires Owns(w, fileId, ownerId)
    ensures var (db', _) := RemoveShareLink(w, fileId, ownerId).value;
            && ShareModel.GetShareLinkByFileId(db', fileId).None?
            && (ShareModel.GetShareLinkByToken(db', token).Some? ==> ShareModel.GetShareLinkByToken(db', token).value.fileId != fileId)
            && (forall other :: other != fileId && ShareModel.HasLink(w.db, other) ==> ShareModel.HasLink(db', other))
  {
    var (db', _) := RemoveShareLink(w, fileId, ownerId).value;
    forall other | other != fileId && ShareModel.HasLink(w.db, other)
      ensures ShareModel.HasLink(db', other)
    {
      var i :| 0 <= i < |w.db.links| && w.db.links[i].fileId == other;
      var j :| 0 <= j < |db'.links| && db'.links[j] == w.db.links[i];
    }
  }

  /** Rotation invalidates the old links: in tables with unique tokens, the
      token of any earlier link of the file no longer resolves. */
  lemma RotationInvalidatesOldTokens(w: World, fileId: Id, ownerId: Id, permission: Permission, expiresAt: Option<Time>,
                                     password: Option<string>, freshId: Id, uuid: string, now: Time,
                                     previous: ShareModel.ShareLink, later: Time)
    requires ShareModel.Valid(w.db)
    requires ShareModel.TokenFresh(w.db, ShareModel.MakeToken(uuid, now))
    requires Owns(w, fileId, ownerId)
    requires previous in w.db.links && previous.fileId == fileId
    ensures var (db', _) := CreateShareLink(w, fileId, ownerId, permission, expiresAt, password, freshId, uuid, now).value;
            GetFileByShareToken(w.(db := db'), previous.token, later) == Failure(InvalidShareLink)
  {
    var (db', l) := CreateShareLink(w, fileId, ownerId, permission, expiresAt, password, freshId, uuid, now).value;
    TokenNamesOneLink(w.db, previous);
    forall i | 0 <= i < |db'.links|
      ensures db'.links[i].token != previous.token
    {
      if db'.links[i] != l {
        TokenNamesOneLink(w.db, db'.links[i]);
      }
    }
  }

  /** A link the share info shows resolves, through its token, to the file
      at the link's permission. */
  lemma ShownLinkResolves(w: World, fileId: Id, userId: Id, now: Time, frontendUrl: string)
    requires ShareModel.Valid(w.db)
    requires Owns(w, fileId, userId)
    requires ShareModel.GetShareLinkByFileId(w.db, fileId).Some?
    requires !Expired(ShareModel.GetShareLinkByFileId(w.db, fileId).value, now)
    ensures var info := GetShareInfo(w, fileId, userId, now, frontendUrl).value.shareLink.value;
            GetFileByShareToken(w, info.token, now) == Success((FileOf(w, fileId).value, info.permission))
  {
    var latest := ShareModel.GetShareLinkByFileId(w.db, fileId).value;
    TokenNamesOneLink(w.db, latest);
  }

  /** An expired link is hidden from the share info but not deleted: its
      token still resolves, to "Share link has expired". */
  lemma ExpiredLinkIsKept(w: World, fileId: Id, userId: Id, now: Time, frontendUrl: string)
    requires ShareModel.Valid(w.db)
    requires Owns(w, fileId, userId)
    requires ShareModel.GetShareLinkByFileId(w.db, fileId).Some?
    requires Expired(ShareModel.GetShareLinkByFileId(w.db, fileId).value, now)
    ensures GetShareInfo(w, fileId, userId, now, frontendUrl).value.shareLink.None?
    ensures GetFileByShareToken(w, ShareModel.GetShareLinkByFileId(w.db, fileId).value.token, now)
            == Failure(ShareLinkExpired)
  {
    TokenNamesOneLink(w.db, ShareModel.GetShareLinkByFileId(w.db, fileId).value);
  }

  /** Expiry is final: a link expired at one time is expired at every
      later time. */
  lemma ExpiryIsFinal(l: ShareModel.ShareLink, now: Time, later: Time)
    requires Expired(l, now) && now <= later
    ensures Expired(l, later)
  {
  }

  /** With unique tokens a link is the one its token names. */
  lemma TokenNamesOneLink(db: ShareModel.ShareDb, l: ShareModel.ShareLink)
    requires ShareModel.Valid(db) && l in db.links
    ensures ShareModel.GetShareLinkByToken(db, l.token) == Some(l)
  {
    var m := ShareModel.GetShareLinkByToken(db, l.token).value;
    var i :| 0 <= i < |db.links| && db.links[i] == l;
    var j :| 0 <= j < |db.links| && db.links[j] == m;
  }

  /** Every link with its password removed. */
  function WithoutPasswords(db: ShareModel.ShareDb): (r: ShareModel.ShareDb)
    ensures r.shares == db.shares && |r.links| == |db.links|
    ensures forall i :: 0 <= i < |db.links| ==> r.links[i] == db.links[i].(password := None)
  {
    db.(links := seq(|db.links|, i requires 0 <= i < |db.links| => db.links[i].(password := None)))
  }

  /** Token resolution never looks at the password: the answer is the same
      with every password removed. */
  lemma PasswordIgnored(w: World, token: string, now: Time)
    ensures GetFileByShareToken(w.(db := WithoutPasswords(w.db)), token, now) == GetFileByShareToken(w, token, now)
  {
    var db2 := WithoutPasswords(w.db);
    FirstMapped(w.db.links, db2.links, ShareModel.HasToken(token),
                (l: ShareModel.ShareLink) => l.(password := None));
    var before := ShareModel.GetShareLinkByToken(w.db, token);
    assert ShareModel.GetShareLinkByToken(db2, token)
           == if before.Some? then Some(before.value.(password := None)) else None;
  }

  /** Every share with the user whose file and owner still exist is
      listed. */
  lemma SharedFileListed(w: World, userId: Id, s: ShareModel.FileShare)
    requires s in w.db.shares && s.sharedWithId == userId
    requires Entry(w.files, w.users, s).Some?
    ensures Entry(w.files, w.users, s).value in GetSharedFiles(w, userId)
  {
    var shares := ShareModel.GetSharesByUserId(w.db, userId);
    var es := Entries(w.files, w.users, shares);
    assert s in shares;
    var j :| 0 <= j < |shares| && shares[j] == s;
    assert es[j] == Entry(w.files, w.users, s);
  }
}

=== FILE: storage_service.dfy ===
/** The two storage backends as abstract stores: the local disk as a map
    from relative path to bytes, the S3 bucket as a map from object key to
    object. File-system and SDK calls are not modelled; whether such a
    call fails is the `fault` parameter, and the fresh uuid and the signed
    URL the SDK would produce are parameters too. */
module StorageService {
  import opened Common
  import opened Uri

  /** A stored S3 object; `getObject` may hand back an object without a
      body. */
  datatype S3Object = S3Object(body: Option<Bytes>, contentType: string)

  /** The backend the factory chose, with its contents. */
  datatype Backend =
    | LocalDisk(disk: map<string, Bytes>)
    | S3Bucket(bucket: map<string, S3Object>)

  /** The part of a multer upload the backends read. */
  datatype UploadedFile = UploadedFile(originalName: string, mimeType: string, size: nat, content: Bytes)

  /** `{ filePath, fileUrl? }`. */
  datatype UploadResult = UploadResult(filePath: string, fileUrl: Option<string>)

  /** `StorageServiceFactory.create`: the S3 backend exactly when the
      configured storage type is the string `s3`, the local one otherwise. */
  function Create(storageType: string, disk: map<string, Bytes>, bucket: map<string, S3Object>): (b: Backend)
    ensures b.S3Bucket? <==> storageType == "s3"
    ensures b.S3Bucket? ==> b.bucket == bucket
    ensures b.LocalDisk? ==> b.disk == disk
  {
    if storageType == "s3" then S3Bucket(bucket) else LocalDisk(disk)
  }

  /** The storage type a file row records for a backend. */
  function Kind(b: Backend): StorageType
  {
    if b.S3Bucket? then S3 else Local
  }

  /** The local path of an upload, relative to the upload directory: the
      S3 key of the same upload under the `users/` directory. */
  function LocalKey(userId: Id, uuid: string, originalName: string): (k: string)
    ensures k == "users/" + S3Key(userId, uuid, originalName)
  {
    "users/" + userId + "/" + uuid + "_" + originalName
  }

  /** The S3 object key of an upload: the user's directory, then the uuid
      and the original name joined by `_`. */
  function S3Key(userId: Id, uuid: string, originalName: string): (k: string)
    ensures |k| == |userId| + |uuid| + |originalName| + 2
    ensures k[..|userId|] == userId && k[|userId|] == '/'
    ensures k[|userId| + 1..|userId| + 1 + |uuid|] == uuid && k[|userId| + 1 + |uuid|] == '_'
    ensures k[|userId| + 2 + |uuid|..] == originalName
  {
    userId + "/" + uuid + "_" + originalName
  }

  /** The key an upload is stored under on this backend. */
  function UploadKey(b: Backend, userId: Id, uuid: string, originalName: string): string
  {
    if b.LocalDisk? then LocalKey(userId, uuid, originalName) else S3Key(userId, uuid, originalName)
  }

  /** Whether the backend holds something under the key. */
  predicate Holds(b: Backend, key: string)
  {
    if b.LocalDisk? then key in b.disk else key in b.bucket
  }

  /** Where an upload fails, if it does. `BeforeStore` is any step up to and
      including the write itself: creating the directory and moving the
      temporary file locally, reading the temporary file and the put on S3.
      `AfterPut` is a step the S3 backend takes once the object is stored:
      removing the temporary file or signing the URL. The local backend has
      no step after the move, so there `AfterPut` is the same as `NoFault`. */
  datatype UploadFault = NoFault | BeforeStore | AfterPut

  /** `upload`: local storage moves the temporary file to its key, which
      fails when that path is taken, and returns no URL; S3 puts the object
      under its key, replacing any, and returns the signed URL. The backend
      is returned whatever the outcome: an S3 upload that fails after the
      put leaves the object stored. */
  function Upload(b: Backend, file: UploadedFile, userId: Id, uuid: string, signedUrl: string, fault: UploadFault)
    : (r: (Backend, Result<UploadResult>))
    ensures Kind(r.0) == Kind(b)
    ensures r.1.Failure? ==> r.1.error == StorageFailure
    ensures r.1.Failure? <==> || fault == BeforeStore
                              || (fault == AfterPut && b.S3Bucket?)
                              || (b.LocalDisk? && LocalKey(userId, uuid, file.originalName) in b.disk)
    ensures fault == BeforeStore || (b.LocalDisk? && LocalKey(userId, uuid, file.originalName) in b.disk) ==> r.0 == b
    ensures b.S3Bucket? && fault != BeforeStore ==>
              r.0.bucket == b.bucket[S3Key(userId, uuid, file.originalName) := S3Object(Some(file.content), file.mimeType)]
    ensures r.1.Success? ==>
              var (b', res) := (r.0, r.1.value);
              && res.filePath == UploadKey(b, userId, uuid, file.originalName)
              && (res.fileUrl.Some? <==> b.S3Bucket?)
              && (b.S3Bucket? ==> res.fileUrl == Some(signedUrl))
              && (b'.LocalDisk? ==> b'.disk == b.disk[res.filePath := file.content])
  {
    if fault == BeforeStore then (b, Failure(StorageFailure))
    else match b
      case LocalDisk(disk) =>
        var key := LocalKey(userId, uuid, file.originalName);
        if key in disk then (b, Failure(StorageFailure))
        else (LocalDisk(disk[key := file.content]), Success(UploadResult(key, None)))
      case S3Bucket(bucket) =>
        var key := S3Key(userId, uuid, file.originalName);
        var b' := S3Bucket(bucket[key := S3Object(Some(file.content), file.mimeType)]);
        if fault == AfterPut then (b', Failure(StorageFailure))
        else (b', Success(UploadResult(key, Some(signedUrl))))
  }

  /** `delete`: removes the key when present and does nothing otherwise
      (`deleteObject` of a missing key succeeds as well). The row's storage
      type argument is ignored. */
  function Delete(b: Backend, path: string, storageType: StorageType, fault: bool): (r: Result<Backend>)
    ensures r.Failure? <==> fault
    ensures r.Failure? ==> r.error == StorageFailure
    ensures r.Success? ==> Kind(r.value) == Kind(b) && !Holds(r.value, path)
    ensures r.Success? && r.value.LocalDisk? ==>
              forall k :: k != path ==> (k in r.value.disk <==> k in b.disk)
                                        && (k in b.disk ==> r.value.disk[k] == b.disk[k])
    ensures r.Success? && r.value.S3Bucket? ==>
              forall k :: k != path ==> (k in r.value.bucket <==> k in b.bucket)
                                        && (k in b.bucket ==> r.value.bucket[k] == b.bucket[k])
  {
    if fault then Failure(StorageFailure)
    else match b
      case LocalDisk(disk) => Success(if path in disk then LocalDisk(disk - {path}) else b)
      case S3Bucket(bucket) => Success(S3Bucket(bucket - {path}))
  }

  /** The route under which the API serves a local file. */
  const DownloadRoute: string := "/api/files/download/"

  /** `getFileUrl`: locally, null for an absent path and otherwise the
      download route with the path percent-encoded; on S3 whatever the
      signer produced (null when it threw), present object or not. */
  function GetFileUrl(b: Backend, path: string, storageType: StorageType, signedUrl: Option<string>): (r: Option<string>)
    ensures b.LocalDisk? ==> (r.None? <==> path !in b.disk)
    ensures b.LocalDisk? && r.Some? ==>
              |r.value| >= |DownloadRoute| && r.value[..|DownloadRoute|] == DownloadRoute
              && PercentDecode(r.value[|DownloadRoute|..]) == Utf8String(path)
    ensures b.S3Bucket? ==> r == signedUrl
  {
    match b
    case LocalDisk(disk) =>
      if path !in disk then None
      else
        var url := DownloadRoute + EncodeURIComponent(path);
        assert url[|DownloadRoute|..] == EncodeURIComponent(path);
        DecodeEncode(path);
        Some(url)
    case S3Bucket(_) => signedUrl
  }

  /** `download`: the stored bytes. Reading a missing local path or
      object fails in the backend; an S3 object without a body is
      "File not found in S3". */
  function Download(b: Backend, path: string, storageType: StorageType, fault: bool): (r: Result<Bytes>)
    ensures fault ==> r == Failure(StorageFailure)
    ensures !fault && !Holds(b, path) ==> r == Failure(StorageFailure)
    ensures r == Failure(NotFoundInS3) <==> !fault && b.S3Bucket? && path in b.bucket && b.bucket[path].body.None?
    ensures r.Success? ==> !fault && Holds(b, path)
    ensures r.Success? && b.LocalDisk? ==> r.value == b.disk[path]
    ensures r.Success? && b.S3Bucket? ==> b.bucket[path].body == Some(r.value)
  {
    if fault then Failure(StorageFailure)
    else match b
      case LocalDisk(disk) =>
        if path in disk then Success(disk[path]) else Failure(StorageFailure)
      case S3Bucket(bucket) =>
        if path !in bucket then Failure(StorageFailure)
        else match bucket[path].body
          case None => Failure(NotFoundInS3)
          case Some(bytes) => Success(bytes)
  }

  /** Downloading what was just uploaded yields the uploaded bytes. */
  lemma UploadThenDownload(b: Backend, file: UploadedFile, userId: Id, uuid: string, signedUrl: string, st: StorageType)
    requires Upload(b, file, userId, uuid, signedUrl, NoFault).1.Success?
    ensures var (b', res) := Upload(b, file, userId, uuid, signedUrl, NoFault);
            Download(b', res.value.filePath, st, false) == Success(file.content)
  {
  }

  /** An upload, failed or not, leaves every other key as it was. */
  lemma UploadKeepsOthers(b: Backend, file: UploadedFile, userId: Id, uuid: string, signedUrl: string,
                          fault: UploadFault, path: string, st: StorageType)
    requires path != UploadKey(b, userId, uuid, file.originalName)
    ensures Download(Upload(b, file, userId, uuid, signedUrl, fault).0, path, st, false) == Download(b, path, st, false)
  {
  }

  /** A local upload is found by `getFileUrl`, whose URL decodes back to
      the stored path. */
  lemma LocalUploadHasUrl(disk: map<string, Bytes>, file: UploadedFile, userId: Id, uuid: string, st: StorageType)
    requires LocalKey(userId, uuid, file.originalName) !in disk
    ensures var (b', res) := Upload(LocalDisk(disk), file, userId, uuid, "", NoFault);
            GetFileUrl(b', res.value.filePath, st, None) == Some(DownloadRoute + EncodeURIComponent(res.value.filePath))
  {
  }

  /** An S3 upload that fails after the put leaves the object behind: it
      can be downloaded although the caller was told the upload failed. */
  lemma FailedUploadLeavesObject(bucket: map<string, S3Object>, file: UploadedFile, userId: Id, uuid: string,
                                 signedUrl: string, st: StorageType)
    ensures var (b', res) := Upload(S3Bucket(bucket), file, userId, uuid, signedUrl, AfterPut);
            && res.Failure?
            && Download(b', S3Key(userId, uuid, file.originalName), st, false) == Success(file.content)
  {
  }

  /** Deleting twice is deleting once. */
  lemma DeleteIdempotent(b: Backend, path: string, st: StorageType)
    ensures Delete(Delete(b, path, st, false).value, path, st, false) == Delete(b, path, st, false)
  {
    var once := Delete(b, path, st, false).value;
    if once.S3Bucket? {
      assert once.bucket - {path} == once.bucket;
    }
  }

  /** Deleting a path the backend does not hold changes nothing locally. */
  lemma DeleteAbsentIsNoOp(disk: map<string, Bytes>, path: string, st: StorageType)
    requires path !in disk
    ensures Delete(LocalDisk(disk), path, st, false) == Success(LocalDisk(disk))
  {
  }

  /** After a delete, the path can no longer be downloaded. */
  lemma DeleteThenDownloadFails(b: Backend, path: string, st: StorageType)
    ensures Download(Delete(b, path, st, false).value, path, st, false) == Failure(StorageFailure)
  {
  }

  /** For one user and uuids of one length (v4 uuids all have 36
      characters), the key determines both the uuid and the original name,
      so fresh uuids never collide. */
  lemma S3KeyInjective(userId: Id, u1: string, n1: string, u2: string, n2: string)
    requires |u1| == |u2|
    requires S3Key(userId, u1, n1) == S3Key(userId, u2, n2)
    ensures u1 == u2 && n1 == n2
  {
    var k := S3Key(userId, u1, n1);
    var a := |userId| + 1;
    assert k[a..a + |u1|] == u1;
    assert S3Key(userId, u2, n2)[a..a + |u2|] == u2;
    assert k[a + |u1| + 1..] == n1;
    assert S3Key(userId, u2, n2)[a + |u2| + 1..] == n2;
  }
}

=== FILE: text.dfy ===
/** The string primitives the source relies on: `toLowerCase`, `trim`,
    `lastIndexOf`, substring search and `Number.prototype.toString(radix)`. */
module Text {

  /** Lower-casing of one character (ASCII letters only). */
  function LowerChar(c: char): (r: char)
    ensures 'A' <= c <= 'Z' ==> r as int == c as int + 32
    ensures !('A' <= c <= 'Z') ==> r == c
  {
    if 'A' <= c <= 'Z' then (c as int + 32) as char else c
  }

  /** `s.toLowerCase()`, restricted to ASCII letters. */
  function ToLower(s: string): (r: string)
    ensures |r| == |s|
    ensures forall i :: 0 <= i < |s| ==> r[i] == LowerChar(s[i])
  {
    seq(|s|, i requires 0 <= i < |s| => LowerChar(s[i]))
  }

  /** Lower-casing twice is lower-casing once: the email stored by user
      creation is a fixed point of the lower-casing applied on lookup. */
  lemma ToLowerIdempotent(s: string)
    ensures ToLower(ToLower(s)) == ToLower(s)
  {
  }

  lemma ToLowerConcat(a: string, b: string)
    ensures ToLower(a + b) == ToLower(a) + ToLower(b)
  {
  }

  /** ECMAScript WhiteSpace and LineTerminator code points, the set that
      `String.prototype.trim` strips. Each is a single UTF-16 code unit, so
      stripping them code point by code point strips the same units. */
  predicate IsSpace(c: char): (b: bool)
    ensures b ==> c as int < 0x1_0000
  {
    || c == ' ' || c == '\t' || c == '\n' || c == '\r'
    || c == '\U{000B}' || c == '\U{000C}' || c == '\U{00A0}' || c == '\U{1680}'
    || ('\U{2000}' <= c <= '\U{200A}')
    || c == '\U{2028}' || c == '\U{2029}' || c == '\U{202F}' || c == '\U{205F}'
    || c == '\U{3000}' || c == '\U{FEFF}'
  }

  predicate AllSpace(s: string)
  {
    forall i :: 0 <= i < |s| ==> IsSpace(s[i])
  }

  /** The position of the first character that is not white space, or
      `|s|` when there is none. */
  function TrimFrom(s: string): (a: nat)
    ensures a <= |s|
    ensures forall i :: 0 <= i < a ==> IsSpace(s[i])
    ensures a < |s| ==> !IsSpace(s[a])
  {
    SkipSpaces(s, 0)
  }

  function SkipSpaces(s: string, i: nat): (a: nat)
    requires i <= |s|
    ensures i <= a <= |s|
    ensures forall j :: i <= j < a ==> IsSpace(s[j])
    ensures a < |s| ==> !IsSpace(s[a])
    decreases |s| - i
  {
    if i < |s| && IsSpace(s[i]) then SkipSpaces(s, i + 1) else i
  }

  /** The position just after the last character that is not white space,
      searching no further left than `TrimFrom(s)`. */
  function TrimTo(s: string): (b: nat)
    ensures TrimFrom(s) <= b <= |s|
    ensures forall i :: b <= i < |s| ==> IsSpace(s[i])
    ensures b > TrimFrom(s) ==> !IsSpace(s[b - 1])
  {
    SkipSpacesBack(s, TrimFrom(s), |s|)
  }

  function SkipSpacesBack(s: string, lo: nat, j: nat): (b: nat)
    requires lo <= j <= |s|
    ensures lo <= b <= j
    ensures forall i :: b <= i < j ==> IsSpace(s[i])
    ensures b > lo ==> !IsSpace(s[b - 1])
    decreases j
  {
    if j > lo && IsSpace(s[j - 1]) then SkipSpacesBack(s, lo, j - 1) else j
  }

  /** `s.trim()`: white space cut off both ends. */
  function Trim(s: string): (r: string)
    ensures |r| <= |s|
    ensures |r| > 0 ==> !IsSpace(r[0]) && !IsSpace(r[|r| - 1])
  {
    s[TrimFrom(s)..TrimTo(s)]
  }

  /** What `Trim` keeps is an infix of the input, and everything it cuts
      off on either side is white space. */
  lemma TrimShape(s: string)
    ensures exists a, b ::
              && 0 <= a <= b <= |s| && Trim(s) == s[a..b]
              && (forall i :: 0 <= i < a ==> IsSpace(s[i]))
              && (forall i :: b <= i < |s| ==> IsSpace(s[i]))
  {
    var a, b := TrimFrom(s), TrimTo(s);
    assert Trim(s) == s[a..b];
  }

  /** A string trims to the empty string exactly when it is all white space
      (this is the "blank" test of rename and search). */
  lemma TrimEmptyIff(s: string)
    ensures Trim(s) == "" <==> AllSpace(s)
  {
    var a, b := TrimFrom(s), TrimTo(s);
    if Trim(s) != "" {
      assert s[a] == Trim(s)[0];
    } else {
      assert a == b;
    }
  }

  /** Trimming an already trimmed string changes nothing. */
  lemma TrimIdempotent(s: string)
    ensures Trim(Trim(s)) == Trim(s)
  {
    var r := Trim(s);
    if |r| > 0 {
      assert TrimFrom(r) == 0;
      assert SkipSpacesBack(r, 0, |r|) == |r|;
    }
  }

  /** `s.lastIndexOf(c)`: the position of the last `c`, or -1. */
  function LastIndexOf(s: string, c: char): (r: int)
    ensures -1 <= r < |s|
    ensures r >= 0 ==> s[r] == c
    ensures forall i :: r < i < |s| ==> s[i] != c
  {
    if |s| == 0 then -1
    else if s[|s| - 1] == c then |s| - 1
    else LastIndexOf(s[..|s| - 1], c)
  }

  /** The last index ignores everything before a `c` that is followed by
      a `c`-free tail. */
  lemma {:induction false} LastIndexOfAppend(a: string, c: char, b: string)
    requires forall i :: 0 <= i < |b| ==> b[i] != c
    ensures LastIndexOf(a + [c] + b, c) == |a|
    decreases |b|
  {
    var s := a + [c] + b;
    if |b| > 0 {
      assert s[|s| - 1] == b[|b| - 1];
      assert s[..|s| - 1] == a + [c] + b[..|b| - 1];
      LastIndexOfAppend(a, c, b[..|b| - 1]);
    } else {
      assert s[|s| - 1] == c;
    }
  }

  /** `t` occurs in `s` at position `i`, ignoring ASCII case. */
  predicate OccursAt(s: string, t: string, i: int)
  {
    0 <= i && i + |t| <= |s| && ToLower(s[i..i + |t|]) == ToLower(t)
  }

  /** Case-insensitive substring test. */
  predicate ContainsIgnoreCase(s: string, t: string)
  {
    exists i :: 0 <= i <= |s| && OccursAt(s, t, i)
  }

  type Radix = b: int | 2 <= b <= 36 witness 10

  /** The digit alphabet of `Number.prototype.toString(radix)`:
      `0`-`9` then lower-case `a`-`z`. */
  function DigitChar(d: nat): (c: char)
    requires d < 36
  {
    if d < 10 then ('0' as int + d) as char else ('a' as int + d - 10) as char
  }

  /** The value of one digit character, or -1 when it is not a digit. */
  function DigitValue(c: char): (v: int)
    ensures -1 <= v < 36
    ensures v >= 0 ==> DigitChar(v) == c
  {
    if '0' <= c <= '9' then c as int - '0' as int
    else if 'a' <= c <= 'z' then c as int - 'a' as int + 10
    else -1
  }

  /** `n.toString(base)` for a non-negative integer `n`. */
  function NatToString(n: nat, base: Radix): (r: string)
    ensures |r| > 0
    ensures forall i :: 0 <= i < |r| ==> 0 <= DigitValue(r[i]) < base
    ensures |r| > 1 ==> r[0] != '0'
    decreases n
  {
    DivideShrinks(n, base);
    if n < base then [DigitChar(n)]
    else NatToString(n / base, base) + [DigitChar(n % base)]
  }

  lemma DivideShrinks(n: nat, base: Radix)
    ensures n >= base ==> 0 < n / base < n
    ensures 0 <= n % base < base
    ensures (n / base) * base + n % base == n
  {
  }

  /** Reads digits most-significant first; the inverse of `NatToString`. */
  function ParseNat(s: string, base: Radix): int
  {
    if |s| == 0 then 0
    else ParseNat(s[..|s| - 1], base) * base + DigitValue(s[|s| - 1])
  }

  /** Rendering a number in a radix and reading it back gives the number,
      so distinct timestamps give distinct digit strings. */
  lemma {:induction false} ParseNatToString(n: nat, base: Radix)
    ensures ParseNat(NatToString(n, base), base) == n
    decreases n
  {
    var s := NatToString(n, base);
    if n < base {
      assert s[..0] == [];
      assert DigitValue(DigitChar(n)) == n;
    } else {
      var q, d := n / base, n % base;
      DivideShrinks(n, base);
      ParseNatToString(q, base);
      assert s == NatToString(q, base) + [DigitChar(d)];
      assert s[..|s| - 1] == NatToString(q, base);
      assert DigitValue(DigitChar(d)) == d;
      assert ParseNat(s, base) == q * base + d;
      assert q * base + d == n;
    }
  }

  /** Two numbers with the same rendering are equal. */
  lemma NatToStringInjective(m: nat, n: nat, base: Radix)
    requires NatToString(m, base) == NatToString(n, base)
    ensures m == n
  {
    ParseNatToString(m, base);
    ParseNatToString(n, base);
  }
}

=== FILE: uri.dfy ===
/** `encodeURIComponent`: characters outside the unreserved set are written
    as `%XX` escapes of their UTF-8 bytes, with upper-case hex digits. */
module Uri {
  import opened Common

  /** The characters `encodeURIComponent` leaves alone. */
  predicate IsUnreserved(c: char)
  {
    || ('A' <= c <= 'Z') || ('a' <= c <= 'z') || ('0' <= c <= '9')
    || c == '-' || c == '_' || c == '.' || c == '!' || c == '~'
    || c == '*' || c == '\'' || c == '(' || c == ')'
  }

  /** The UTF-8 encoding of one code point. */
  function Utf8(c: char): (r: seq<Byte>)
    ensures 1 <= |r| <= 4
    ensures |r| == 1 <==> c as int < 0x80
    ensures |r| == 1 ==> r[0] == c as int
  {
    var n := c as int;
    if n < 0x80 then [n]
    else if n < 0x800 then [0xC0 + n / 0x40, 0x80 + n % 0x40]
    else if n < 0x1_0000 then [0xE0 + n / 0x1000, 0x80 + (n / 0x40) % 0x40, 0x80 + n % 0x40]
    else [0xF0 + n / 0x4_0000, 0x80 + (n / 0x1000) % 0x40, 0x80 + (n / 0x40) % 0x40, 0x80 + n % 0x40]
  }

  /** The UTF-8 encoding of a string. */
  function Utf8String(s: string): seq<Byte>
  {
    if |s| == 0 then [] else Utf8(s[0]) + Utf8String(s[1..])
  }

  function HexDigit(d: nat): (c: char)
    requires d < 16
  {
    if d < 10 then ('0' as int + d) as char else ('A' as int + d - 10) as char
  }

  /** The value of a hex digit (either case), or -1. */
  function HexValue(c: char): (v: int)
    ensures -1 <= v < 16
  {
    if '0' <= c <= '9' then c as int - '0' as int
    else if 'A' <= c <= 'F' then c as int - 'A' as int + 10
    else if 'a' <= c <= 'f' then c as int - 'a' as int + 10
    else -1
  }

  /** `%XX` escapes for a run of bytes. */
  function Escape(bytes: seq<Byte>): (r: string)
    ensures |r| == 3 * |bytes|
  {
    if |bytes| == 0 then []
    else ['%', HexDigit(bytes[0] / 16), HexDigit(bytes[0] % 16)] + Escape(bytes[1..])
  }

  function EncodeChar(c: char): string
  {
    if IsUnreserved(c) then [c] else Escape(Utf8(c))
  }

  /** `encodeURIComponent(s)`. */
  function EncodeURIComponent(s: string): (r: string)
    ensures |r| >= |s|
  {
    if |s| == 0 then [] else EncodeChar(s[0]) + EncodeURIComponent(s[1..])
  }

  /** Percent-decoding to bytes: a `%` with two hex digits is one byte,
      any other character stands for its UTF-8 bytes. */
  function PercentDecode(s: string): seq<Byte>
  {
    if |s| == 0 then []
    else if s[0] == '%' && |s| >= 3 && HexValue(s[1]) >= 0 && HexValue(s[2]) >= 0 then
      [HexValue(s[1]) * 16 + HexValue(s[2])] + PercentDecode(s[3..])
    else Utf8(s[0]) + PercentDecode(s[1..])
  }

  /** A hex digit reads back as its value. */
  lemma HexRoundTrip(d: nat)
    requires d < 16
    ensures HexValue(HexDigit(d)) == d
  {
  }

  /** One escape decodes to its byte. */
  lemma DecodeOneEscape(b: Byte, rest: string)
    ensures PercentDecode(['%', HexDigit(b / 16), HexDigit(b % 16)] + rest) == [b] + PercentDecode(rest)
  {
    var e := ['%', HexDigit(b / 16), HexDigit(b % 16)] + rest;
    HexRoundTrip(b / 16);
    HexRoundTrip(b % 16);
    assert e[0] == '%' && e[1] == HexDigit(b / 16) && e[2] == HexDigit(b % 16);
    assert e[3..] == rest;
  }

  lemma {:induction false} DecodeEscape(bytes: seq<Byte>, rest: string)
    ensures PercentDecode(Escape(bytes) + rest) == bytes + PercentDecode(rest)
    decreases |bytes|
  {
    if |bytes| == 0 {
      assert Escape(bytes) + rest == rest;
    } else {
      var b := bytes[0];
      var tail := Escape(bytes[1..]) + rest;
      calc {
        PercentDecode(Escape(bytes) + rest);
        { assert Escape(bytes) + rest == ['%', HexDigit(b / 16), HexDigit(b % 16)] + tail; }
        PercentDecode(['%', HexDigit(b / 16), HexDigit(b % 16)] + tail);
        { DecodeOneEscape(b, tail); }
        [b] + PercentDecode(tail);
        { DecodeEscape(bytes[1..], rest); }
        [b] + (bytes[1..] + PercentDecode(rest));
        { assert bytes == [b] + bytes[1..]; }
        bytes + PercentDecode(rest);
      }
    }
  }

  /** Decoding an encoded string yields its UTF-8 bytes: the encoding loses
      nothing, so the download route can recover the stored path. */
  lemma {:induction false} DecodeEncode(s: string)
    ensures PercentDecode(EncodeURIComponent(s)) == Utf8String(s)
    decreases |s|
  {
    if |s| > 0 {
      var c := s[0];
      var tail := EncodeURIComponent(s[1..]);
      DecodeEncode(s[1..]);
      if IsUnreserved(c) {
        assert EncodeURIComponent(s) == [c] + tail;
        assert ([c] + tail)[1..] == tail;
      } else {
        DecodeEscape(Utf8(c), tail);
      }
    }
  }

  /** A string is its own encoding exactly when every character is
      unreserved. */
  lemma {:induction false} EncodeIdentityIff(s: string)
    ensures EncodeURIComponent(s) == s <==> forall i :: 0 <= i < |s| ==> IsUnreserved(s[i])
    decreases |s|
  {
    if |s| > 0 {
      EncodeIdentityIff(s[1..]);
      var tail := EncodeURIComponent(s[1..]);
      if IsUnreserved(s[0]) {
        assert EncodeURIComponent(s) == [s[0]] + tail;
        assert s == [s[0]] + s[1..];
        if EncodeURIComponent(s) == s {
          assert tail == s[1..];
        }
        if forall i :: 0 <= i < |s| ==> IsUnreserved(s[i]) {
          assert forall i :: 0 <= i < |s[1..]| ==> IsUnreserved(s[1..][i]) by {
            forall i | 0 <= i < |s[1..]|
              ensures IsUnreserved(s[1..][i])
            {
              assert s[1..][i] == s[i + 1];
            }
          }
        }
        if forall i :: 0 <= i < |s[1..]| ==> IsUnreserved(s[1..][i]) {
          assert forall i :: 0 <= i < |s| ==> IsUnreserved(s[i]) by {
            forall i | 0 <= i < |s|
              ensures IsUnreserved(s[i])
            {
              if i > 0 {
                assert s[i] == s[1..][i - 1];
              }
            }
          }
        }
      } else {
        var e := Escape(Utf8(s[0]));
        assert EncodeURIComponent(s) == e + tail;
        assert e[0] == '%';
        assert !IsUnreserved('%');
        assert (e + tail)[0] == '%';
      }
    }
  }
}

=== FILE: user_model.dfy ===
/** The `users` table as a sequence of rows: the identity store that share
    resolution looks recipients and owners up in. */
module UserModel {
  import opened Common
  import opened Text
  import opened Ordering

  datatype Provider = EmailProvider | Google

  datatype User = User(
    id: Id,
    email: string,
    name: string,
    password: Option<string>,
    picture: Option<string>,
    provider: Provider,
    createdAt: Time,
    updatedAt: Time)

  datatype CreateUserData = CreateUserData(
    email: string,
    name: string,
    password: Option<string>,
    picture: Option<string>,
    provider: Provider)

  /** `Partial<CreateUserData>`: callers may pass any field, but only the
      name, password and picture are ever written. */
  datatype UserUpdate = UserUpdate(
    email: Field<string>,
    name: Field<string>,
    password: Field<string>,
    picture: Field<Option<string>>,
    provider: Field<Provider>)

  type UserTable = seq<User>

  /** The table's constraints: `id` is the primary key and `email` is
      declared UNIQUE. */
  ghost predicate Valid(t: UserTable)
  {
    forall i, j :: 0 <= i < j < |t| ==> t[i].id != t[j].id && t[i].email != t[j].email
  }

  /** No row has this id yet (the id is a fresh v4 uuid). */
  predicate IdFresh(t: UserTable, id: Id)
  {
    forall i :: 0 <= i < |t| ==> t[i].id != id
  }

  predicate HasEmail(t: UserTable, email: string)
  {
    exists i :: 0 <= i < |t| && t[i].email == email
  }

  /** `create`: inserts a row with the lower-cased email, a fresh id, and
      an empty password or picture stored as null. The UNIQUE constraint
      rejects an email some user already has. */
  function Create(t: UserTable, data: CreateUserData, freshId: Id, now: Time): (r: Result<(UserTable, User)>)
    requires IdFresh(t, freshId)
    ensures r.Failure? <==> HasEmail(t, ToLower(data.email))
    ensures r.Failure? ==> r.error == DuplicateEmail
    ensures r.Success? ==>
              var (t', u) := r.value;
              && t' == t + [u]
              && u.id == freshId
              && u.email == ToLower(data.email)
              && u.name == data.name
              && u.provider == data.provider
              && (u.password.None? <==> data.password.None? || data.password.value == "")
              && (u.password.Some? ==> u.password == data.password)
              && (u.picture.None? <==> data.picture.None? || data.picture.value == "")
              && (u.picture.Some? ==> u.picture == data.picture)
  {
    var email := ToLower(data.email);
    if HasEmail(t, email) then Failure(DuplicateEmail)
    else
      var u := User(freshId, email, data.name, NullIfEmpty(data.password),
                    NullIfEmpty(data.picture), data.provider, now, now);
      Success((t + [u], u))
  }

  /** `findByEmail`: the argument is lower-cased before an exact match. */
  function FindByEmail(t: UserTable, email: string): (r: Option<User>)
    ensures r.None? <==> !HasEmail(t, ToLower(email))
    ensures r.Some? ==> r.value in t && r.value.email == ToLower(email)
  {
    First(t, (u: User) => u.email == ToLower(email))
  }

  /** `findById`. */
  function FindById(t: UserTable, id: Id): (r: Option<User>)
    ensures r.None? <==> IdFresh(t, id)
    ensures r.Some? ==> r.value in t && r.value.id == id
  {
    First(t, HasId(id))
  }

  function HasId(id: Id): User -> bool
  {
    (u: User) => u.id == id
  }

  /** True when the update names none of the columns `update` writes. */
  predicate WritesNothing(upd: UserUpdate)
  {
    upd.name.Keep? && upd.password.Keep? && upd.picture.Keep?
  }

  /** The row after `update`: the supplied name, password and picture, a
      new `updated_at`; email and provider are never written. */
  function ApplyUpdate(u: User, upd: UserUpdate, now: Time): User
  {
    u.(name := if upd.name.Set? then upd.name.value else u.name,
       password := if upd.password.Set? then Some(upd.password.value) else u.password,
       picture := if upd.picture.Set? then upd.picture.value else u.picture,
       updatedAt := now)
  }

  /** `update`: with nothing to write it is `findById`; otherwise the row
      with the id gets the supplied fields and the new row is returned. */
  function Update(t: UserTable, id: Id, upd: UserUpdate, now: Time): (r: (UserTable, Option<User>))
    ensures WritesNothing(upd) ==> r == (t, FindById(t, id))
    ensures |r.0| == |t|
    ensures forall i :: 0 <= i < |t| && t[i].id != id ==> r.0[i] == t[i]
    ensures forall i :: 0 <= i < |t| ==>
              && r.0[i].id == t[i].id && r.0[i].email == t[i].email
              && r.0[i].provider == t[i].provider && r.0[i].createdAt == t[i].createdAt
    ensures !WritesNothing(upd) ==> forall i :: 0 <= i < |t| && t[i].id == id ==>
              && r.0[i].name == (if upd.name.Set? then upd.name.value else t[i].name)
              && r.0[i].password == (if upd.password.Set? then Some(upd.password.value) else t[i].password)
              && r.0[i].picture == (if upd.picture.Set? then upd.picture.value else t[i].picture)
              && r.0[i].updatedAt == now
    ensures r.1.None? <==> IdFresh(t, id)
    ensures r.1 == FindById(r.0, id)
    ensures !WritesNothing(upd) && r.1.Some? ==> r.1.value == ApplyUpdate(FindById(t, id).value, upd, now)
  {
    if WritesNothing(upd) then (t, FindById(t, id))
    else
      var t' := Rewrite(t, id, upd, now);
      RewriteFinds(t, id, upd, now);
      (t', FindById(t', id))
  }

  /** The table with every row that has the id rewritten by the update. */
  function Rewrite(t: UserTable, id: Id, upd: UserUpdate, now: Time): (r: UserTable)
    ensures |r| == |t|
    ensures forall i :: 0 <= i < |t| ==> r[i] == if t[i].id == id then ApplyUpdate(t[i], upd, now) else t[i]
  {
    seq(|t|, i requires 0 <= i < |t| => if t[i].id == id then ApplyUpdate(t[i], upd, now) else t[i])
  }

  /** After the rewrite the lookup finds the rewritten version of the row
      it found before. */
  lemma RewriteFinds(t: UserTable, id: Id, upd: UserUpdate, now: Time)
    ensures FindById(Rewrite(t, id, upd, now), id)
            == if FindById(t, id).Some? then Some(ApplyUpdate(FindById(t, id).value, upd, now)) else None
  {
    FirstMapped(t, Rewrite(t, id, upd, now), HasId(id), (u: User) => ApplyUpdate(u, upd, now));
  }

  /** Creating a user keeps the table's constraints. */
  lemma CreatePreservesValid(t: UserTable, data: CreateUserData, freshId: Id, now: Time)
    requires Valid(t) && IdFresh(t, freshId)
    requires Create(t, data, freshId, now).Success?
    ensures Valid(Create(t, data, freshId, now).value.0)
  {
  }

  /** Updating a user keeps the table's constraints, since neither the id
      nor the email is written. */
  lemma UpdatePreservesValid(t: UserTable, id: Id, upd: UserUpdate, now: Time)
    requires Valid(t)
    ensures Valid(Update(t, id, upd, now).0)
  {
  }

  /** Emails are lower-cased on create and again on lookup, so after a
      successful create the user is found under any spelling of the email
      that differs only in case. */
  lemma FindCreatedByEmail(t: UserTable, data: CreateUserData, freshId: Id, now: Time, query: string)
    requires IdFresh(t, freshId)
    requires Create(t, data, freshId, now).Success?
    requires ToLower(query) == ToLower(data.email)
    ensures var (t', u) := Create(t, data, freshId, now).value;
            FindByEmail(t', query) == Some(u)
  {
    var (t', u) := Create(t, data, freshId, now).value;
    assert t'[|t|] == u;
    assert forall i :: 0 <= i < |t| ==> t'[i] == t[i];
  }

  /** A lookup by email ignores the case of the query. */
  lemma FindByEmailIgnoresCase(t: UserTable, a: string, b: string)
    requires ToLower(a) == ToLower(b)
    ensures FindByEmail(t, a) == FindByEmail(t, b)
  {
  }

  /** After a successful create the new id resolves to the new user. */
  lemma FindCreatedById(t: UserTable, data: CreateUserData, freshId: Id, now: Time)
    requires IdFresh(t, freshId)
    requires Create(t, data, freshId, now).Success?
    ensures var (t', u) := Create(t, data, freshId, now).value;
            FindById(t', freshId) == Some(u)
  {
    var (t', u) := Create(t, data, freshId, now).value;
    assert t'[|t|] == u;
  }
}
